=== FILE: README.md ===
# Hotel booking page: date pickers and booking-form controls

This project models the stateful parts of a hotel landing page's booking bar, as pure
functions over immutable data.

- **`DateRangePicker`** (`date_range_picker.dfy`) is the popover check-in/check-out picker. It shows one
  Sunday-first month grid and selects with two clicks, swapping the dates when the second
  click is earlier. It previews the range under the pointer while the check-out is undecided,
  and has a Clear button that drops both dates and an Apply button that fires the `onSelect`
  and `onClose` callbacks. Callbacks are returned as a list of notices.
- **`InlineCalendar`** (`calendar.dfy`) is the inline two-pane calendar. It has Monday-first grids
  for the anchor month and the month after it. A flag says whether the next click sets the
  check-in or the check-out. The calendar closes itself when the range is complete, and its
  dates section shows one of three texts.
- **`MonthGrid`** (`month_grid.dfy`) is the 42-cell month grid both pickers draw. Each cell
  carries the flags other-month, today, disabled (past), selected and in-range.
- **`CivilDate`** (`civil_date.dfy`) gives the proleptic Gregorian calendar on day numbers:
  - day 0 is 1970-01-01;
  - conversion to and from year/month/day uses March-based years and 400-year eras;
  - it also gives weekdays, months as (year, month) pairs, and JavaScript's
    `setMonth(getMonth() + k)` as the page writes it.
- **`BookingForm`** (`booking_form.dfy`) holds the booking form's small controls:
  - the min/max guest and room steppers, and the inline page's guest counter;
  - the popovers, of which at most one is open;
  - the singular/plural section texts;
  - the exclusive active language link;
  - the navbar's scrolled state.
- **`Text`** (`text.dfy`) covers decimal numerals: `String(n)`, and the base-ten `parseInt` the
  handlers use to read input values.
- **`Wrappers`** (`wrappers.dfy`) is the `Option` type.

Dates are day numbers. A JavaScript `Date` at local midnight is identified with its day, and
comparisons of dates (`<`, `>=`) are comparisons of day numbers. "Today" is a parameter of every
operation that reads the clock. DOM updates are state changes: a class on a cell is a
boolean field of a `Cell`, and an `aria-expanded` attribute is a field of a `Section`.

## Model

| member | source | states |
|---|---|---|
| CivilDate.CivilFromDays | src/scripts/date-range-picker.js:120-124 | The year, month and day of a day number form a valid date, and that date's day number is the input. |
| CivilDate.DaysFromCivilInverse | src/scripts/date-range-picker.js:111 | Every valid year/month/day is recovered from its day number, so the fields and the day number determine each other. |
| CivilDate.InMonthIff | src/scripts/date-range-picker.js:111-112 | A day lies in month m exactly when it is between the 1st of m and the last day of m, both included. |
| CivilDate.FirstOfNextMonth | src/scripts/date-range-picker.js:112 | The 1st of the next month comes right after the month's last day, including across February and December. |
| CivilDate.DayInMonthOffset | src/scripts/date-range-picker.js:121-122 | Day k of a month is k - 1 days after its 1st. |
| CivilDate.EpochDay | src/scripts/date-range-picker.js:111 | Day number 0 is January 1, 1970, the origin of JavaScript's time values. |
| CivilDate.KnownSunday | src/scripts/date-range-picker.js:114 | `Weekday` gives 0 for February 1, 2026, a Sunday, so it agrees with `getDay()`. |
| CivilDate.WeekdayBack | src/scripts/date-range-picker.js:113-114 | Going back by a day's weekday reaches a Sunday, and the day after that is a Monday. |
| CivilDate.ShiftMonth | src/scripts/date-range-picker.js:64-72 | The month shown after a Previous/Next click is exactly delta months after the current month, with the year carried (the corrected month shift; see the setMonth finding). |
| CivilDate.NextMonthFields | public/script.js:51-53 | The month after December is January of the next year; any other month is followed by the next month of the same year. |
| CivilDate.ShiftMonthAdds | src/scripts/date-range-picker.js:64-72 | Shifting by a months and then by b months is shifting by a + b, so with the corrected month shift Previous undoes Next (see the setMonth finding). |
| CivilDate.DayOfMonthIsOffset | public/script.js:138 | `getDate()` of a day is its distance from the 1st of its month, plus one. |
| CivilDate.SetMonthAsWrittenShortDays | public/script.js:108-110 | `setMonth(getMonth() + k)` on a date whose day of the month exists in the intended month lands in that month, on the same day of the month. |
| CivilDate.SetMonthAsWrittenOverflows | public/script.js:108-110 | When the day of the month is past the end of the intended month, `setMonth` lands in the month after it, on the leftover day. |
| CivilDate.SetMonthSkipsFebruary | public/script.js:108-110 | From January 31, 2025, `setMonth(getMonth() + 1)` reaches March 3 instead of a day in February. |
| MonthGrid.GridStart | public/script.js:121-126 | The grid starts on the first weekday of the week (Sunday or Monday) that is on or before the 1st, within six days of it. |
| MonthGrid.GridDays | src/scripts/date-range-picker.js:111-122 | The grid shows 42 consecutive days, starting on the week's first weekday, with the month's 1st in the first row. |
| MonthGrid.SelectedIsSameDay | src/scripts/date-range-picker.js:197-200 | Testing the check-in and check-out on year, month and day marks exactly the days that are the check-in or the check-out. |
| MonthGrid.MakeCell | src/scripts/date-range-picker.js:124-135 | A cell is disabled iff its day is before today and marked today iff it is today. It is selected iff it is the check-in or check-out day. It is in range iff both dates are set and it lies between them, both included. The number shown is the day's position in its month, counted from 1. |
| MonthGrid.RenderMonth | src/scripts/date-range-picker.js:120-135 | The grid has 42 cells and cell i is the i-th grid day. Each cell is disabled iff that day is before today, marked today iff it is today, selected iff it is the check-in or check-out day, and in range iff both dates are set and it lies between them. |
| MonthGrid.SameDateIsSameDay | public/script.js:199-203 | Equal year, month and day of the month is the same day. |
| MonthGrid.GridCoversMonth | src/scripts/date-range-picker.js:111-131 | The cells not marked other-month are exactly the anchor month's days, one contiguous run that starts in the first row and fits in the grid. |
| MonthGrid.CellMonth | public/script.js:140-143 | On the grid, comparing only the month number decides correctly whether a day belongs to the anchor month. |
| MonthGrid.DayNearMonth | src/scripts/date-range-picker.js:124 | Near a month, a day has that month's number exactly when it lies in that month: the days there are in the month before, the month, or the month after. |
| DateRangePicker.SelectDate | src/scripts/date-range-picker.js:179-195 | With no check-in, or with both dates set, a click starts over. With only a check-in it completes the range, the earlier date first. The selection is always ordered, and nothing else changes except that the hover highlight is wiped. |
| DateRangePicker.Click | src/scripts/date-range-picker.js:147-160 | A click or Enter/Space on a past cell changes nothing; on any other cell it selects that cell's day and keeps the picker open. This is the keyboard handler as written apart from the ISO round trip (see Findings), and the mouse click as intended. |
| DateRangePicker.ClickSelectsClickedCell | src/scripts/date-range-picker.js:147-151 | After a click on an enabled cell, the redrawn grid marks that same cell selected. |
| DateRangePicker.InitOrdered | src/scripts/date-range-picker.js:10-14 | A new picker is closed, holds no dates, and shows the month of today, so every run of user actions from it keeps the selection ordered. |
| DateRangePicker.TwoClicksGiveOrderedRange | src/scripts/date-range-picker.js:179-192 | Two clicks on a fresh selection give the range from the earlier to the later day, in either click order. |
| DateRangePicker.SameDayTwiceIsOneNight | src/scripts/date-range-picker.js:186-191 | Clicking the check-in day again makes it the check-out as well. |
| DateRangePicker.HoverSpan | src/scripts/date-range-picker.js:219-221 | A preview span exists iff a check-in is set, a day is hovered and no check-out is set, and it runs from the earlier to the later of the two. |
| DateRangePicker.Enter | src/scripts/date-range-picker.js:164-170 | Entering a cell never changes the dates, the month or the open state, and records a hovered day only while a check-in waits for its check-out. |
| DateRangePicker.Leave | src/scripts/date-range-picker.js:172-175 | Leaving an enabled cell forgets the hovered day and leaves nothing highlighted. |
| DateRangePicker.HoverPaintsSpan | src/scripts/date-range-picker.js:213-231 | While a check-in waits, entering a cell highlights exactly the days between the check-in and that cell, both included. |
| DateRangePicker.NoHoverAfterCheckOut | src/scripts/date-range-picker.js:165 | Once a check-out is set, entering a cell changes nothing. |
| DateRangePicker.NoHoveredNoHighlight | src/scripts/date-range-picker.js:213-219 | With no hovered day, redrawing the preview highlights no day. |
| DateRangePicker.ClearSelection | src/scripts/date-range-picker.js:233-237 | Clear drops both dates and the highlight, and keeps the month shown and the open state. |
| DateRangePicker.ApplySelection | src/scripts/date-range-picker.js:239-244 | With both dates set, Apply fires `onSelect` with them, then `onClose`, and closes the picker. Otherwise it does nothing and fires nothing. |
| DateRangePicker.OpenPicker | src/scripts/date-range-picker.js:246-250 | Opening shows the picker with the dates and the month unchanged. |
| DateRangePicker.ClosePicker | src/scripts/date-range-picker.js:252-256 | Closing always hides the picker and fires `onClose` once. |
| DateRangePicker.Navigate | src/scripts/date-range-picker.js:64-72 | Moving by delta months shows the month delta months away and keeps the dates and the open state (the corrected month shift; see the setMonth finding). |
| DateRangePicker.SetDates | src/scripts/date-range-picker.js:258-264 | Setting the dates from outside makes `getDates` report exactly those dates, and keeps the month and the open state. |
| DateRangePicker.StepKeepsOrder | src/scripts/date-range-picker.js:62-96 | Every user action keeps the selection ordered, and any `onSelect` it fires reports a check-in not after its check-out. |
| DateRangePicker.RunKeepsOrder | src/scripts/date-range-picker.js:179-244 | Over any sequence of user actions the selection stays ordered, and every `onSelect` fired reports an ordered pair. |
| DateRangePicker.MouseClickAsWritten | src/scripts/date-range-picker.js:84-88 | A mouse click on an enabled cell selects its day (the ISO-corrected day: this member is as written only for the close that follows the redraw), and then the outside-click handler closes the picker and fires `onClose`, because the redraw has detached the clicked cell. A click on a past cell does nothing. |
| DateRangePicker.MouseCompletionSkipsApply | src/scripts/date-range-picker.js:84-88 | The mouse click that completes a range closes the picker with `onClose` alone: no `onSelect` fires, and Apply is gone. |
| DateRangePicker.ClickWaitsForApply | src/scripts/date-range-picker.js:239-244 | The click that completes a range keeps the picker open and fires nothing; the Apply that follows fires `onSelect` with the range, then `onClose`, and closes. |
| DateRangePicker.IsoRoundTripShiftsDay | src/scripts/date-range-picker.js:138-151 | Clicking a cell selects the cell's own day only at UTC offset zero; at any other offset it selects the previous day. |
| InlineCalendar.InitInv | public/script.js:3-9 | A fresh calendar has nothing selected and waits for a check-in; its selection is the one for which the section's text is the placeholder. |
| InlineCalendar.SelectDate | public/script.js:179-197 | The first click sets the check-in, clears the check-out and waits for the check-out. The second completes the range with the earlier date first, waits for a check-in again and closes. The calendar stays in a reachable state. |
| InlineCalendar.StepKeepsInv | public/script.js:25-61 | Every user action keeps the calendar in a reachable state. |
| InlineCalendar.RunKeepsInv | public/script.js:179-193 | From a reachable state, any sequence of user actions keeps the calendar reachable and the selection ordered. |
| InlineCalendar.Click | public/script.js:150-158 | A past day has no click handler; a click on any other day selects it. |
| InlineCalendar.PaneMonth | public/script.js:103-111 | The first pane shows the anchor month and the second the month after it (the corrected month shift; see the setMonth finding). |
| InlineCalendar.PanesConsecutive | public/script.js:107-126 | The panes show consecutive months, and the second pane's grid also starts on a Monday. |
| InlineCalendar.ClickMarksCell | public/script.js:155-166 | After a click on an enabled day, the redrawn pane marks that day selected. |
| InlineCalendar.TwoClicks | public/script.js:179-193 | Two clicks on a fresh calendar give the ordered range, close the overlay and show both dates. |
| InlineCalendar.FirstClickDisplay | public/script.js:216-221 | After the first click, the dates section shows the check-in with the check-out still to pick. |
| InlineCalendar.ThirdClickStartsOver | public/script.js:180-183 | A click after a completed range starts a new selection from that day. |
| InlineCalendar.DisplayOf | public/script.js:205-225 | The section shows both dates iff both are set, the check-in alone iff only it is set, and the placeholder iff no check-in is set. |
| InlineCalendar.SectionText | public/script.js:205-225 | The section's text starts with the formatted check-in and goes on with " → " and the formatted check-out, or with " → Check-out" when there is none; with no check-in it is "Check-in → Check-out". |
| Text.NatToString | src/scripts/main.js:232 | A number is written as at least one digit, without a leading zero. |
| Text.NatToStringValue | src/scripts/main.js:232 | The digits written for a number denote that number. |
| Text.DigitPrefix | src/scripts/main.js:229 | `parseInt` reads the longest run of digits at the start of the text and stops at the first non-digit. |
| Text.ParseDigits | src/scripts/main.js:229-231 | Reading gives `NaN` exactly when the text does not start with a digit, and a number otherwise. |
| Text.ParseIntOfNumeral | src/scripts/main.js:287 | A numeral followed by text that does not start with a digit reads back as the numeral's number. |
| Text.ParseIntToString | src/scripts/main.js:229-232 | `parseInt(String(n))` is n, for negative numbers too. |
| BookingForm.StepDown | src/scripts/main.js:227-235 | Minus lowers the value by one exactly when it is above `min`. Otherwise nothing changes, including when either is `NaN`. |
| BookingForm.StepUp | src/scripts/main.js:237-245 | Plus raises the value by one exactly when it is below `max`. Otherwise nothing changes, including when either is `NaN`. |
| BookingForm.ClickKeepsBounds | src/scripts/main.js:227-245 | A value between `min` and `max` stays there after a press and moves by at most one. |
| BookingForm.NaNStaysPut | src/scripts/main.js:229-231 | A value that reads as `NaN` never moves. |
| BookingForm.ClickAllKeepsBounds | src/scripts/main.js:227-245 | Any sequence of presses keeps an in-bounds value in bounds. |
| BookingForm.PlusSaturates | src/scripts/main.js:237-245 | k presses of plus take value v to the smaller of v + k and `max`. |
| BookingForm.MinusSaturates | src/scripts/main.js:227-235 | k presses of minus take value v to the larger of v - k and `min`. |
| BookingForm.CounterClick | public/script.js:241-261 | A press on row i's button changes only input i, as a stepper press does. |
| BookingForm.CounterRunKeepsBounds | public/script.js:241-261 | However the counter's buttons are pressed, every input stays between its `min` and `max`. |
| BookingForm.RoomsTextPlural | src/scripts/main.js:289-291 | The rooms text starts with the count and says "Rooms" exactly when the count is not one. |
| BookingForm.GuestsTextPlural | src/scripts/main.js:284-287 | The guests text starts with the adult count. It says "Adults" exactly when there is not one adult and "Children" exactly when there is not one child. |
| BookingForm.CounterTextAgrees | public/script.js:272-282 | The inline page's guest text equals the booking form's for the same counts exactly when neither count is one. |
| BookingForm.UpdateDisplayText | src/scripts/main.js:279-292 | A guests input rewrites the guests text, a rooms input the rooms text, and nothing else changes. |
| BookingForm.PressField | src/scripts/main.js:227-248 | A press moves only its own stepper. |
| BookingForm.PressKeepsTexts | src/scripts/main.js:227-245 | Once the section texts match the values, every press keeps them matching. |
| BookingForm.CloseAllPopovers | src/scripts/main.js:266-277 | Afterwards no popover is open and no section is marked expanded. Sections not marked "true" keep their attribute. |
| BookingForm.CloseAllIdempotent | src/scripts/main.js:266-277 | Closing every popover twice is closing them once. |
| BookingForm.TogglePopover | src/scripts/main.js:254-264 | Afterwards at most one popover is open. A click on the open one closes it; a click on a closed one opens it alone and marks its section expanded. |
| BookingForm.ToggleTwiceClosesAll | src/scripts/main.js:254-264 | Opening a closed popover by a click and clicking its section again leaves every popover closed and no section expanded. |
| BookingForm.PopoverRunKeepsOne | src/scripts/main.js:180-192 | From a state with at most one popover open, and each section marked expanded exactly when its popover is open, any sequence of section clicks, outside clicks and Escape presses keeps both properties. |
| BookingForm.ClickLanguage | src/scripts/main.js:120-125 | After a click, the clicked language link is active and no other is. |
| BookingForm.OneActiveAfterClick | src/scripts/main.js:124-125 | After a click, exactly one language link is active. |
| BookingForm.LastClickWins | src/scripts/main.js:124-125 | Only the last click decides which link is active. |
| BookingForm.ScrolledFollowsLastOffset | src/scripts/main.js:33-41 | After any scrolling, the navbar has its scrolled look exactly when the last offset is above 50 pixels. |

## Left out

- DOM construction and event plumbing are not modelled: markup, `innerHTML`, `addEventListener`, `querySelector` and focus handling. Handlers are state transitions, and the user's actions are a datatype.
- Locale formatting with `toLocaleDateString` is not modelled. In the inline calendar's display text it is a formatter function passed in (`InlineCalendar.DisplayText`); the month headers are not modelled.
- Times of day are not modelled. Every grid date and "today" is local midnight, so a day number loses nothing for them. The one place where the time of day and the time zone matter, the ISO string round trip of the popover picker's cells, is under Findings.
- Clock reads (`new Date()`) are not modelled: "today" is a parameter.
- The scroll-reveal animation (IntersectionObserver), smooth scrolling, the mobile menu, and the error handlers with console logging are not modelled. They are browser layout, floating-point pixels and console I/O.
- The duplicate top-level wiring in `script.js` and the build configuration are not modelled; neither has logic of its own.
- Text.ParseInt: works on unbounded integers. JavaScript numbers are IEEE doubles, so `parseInt` rounds a digit run beyond 2^53 and `value ± 1` is absorbed there (src/scripts/main.js:229-244); `Text.ParseIntToString`, `BookingForm.PlusSaturates` and `BookingForm.MinusSaturates` describe the page only for values of magnitude below 2^53, which every count of guests or rooms is.
- Text.ParseInt: reads base ten only. The `0x` prefix, `Infinity`, and white space other than space, tab, line feed and carriage return are not modelled, since the inputs are number fields.
- BookingForm.Stepper: holds the parsed value, `min` and `max`, not the input's text. A handler writes `String(n)` and the next handler reads it back as n (`Text.ParseIntToString`). A value typed by hand is represented by what `parseInt` makes of it.
- BookingForm.CloseAllPopovers: the code sets `aria-expanded="false"` only on sections marked "true" (src/scripts/main.js:268-276), so a section that never had the attribute keeps having none; the model does not promise that every section ends up "false".
- InlineCalendar.Init: the constructor never calls `updateDisplay` (public/script.js:3-21), so until the first click the dates section keeps the text the page markup gives it. The model's text (`InlineCalendar.DisplayOf`) is always the one the selection calls for.
- InlineCalendar.SelectDate: requires a reachable state, in which waiting for a check-out implies a check-in is set. The code would read a null check-in otherwise. `InlineCalendar.InitInv` and `InlineCalendar.StepKeepsInv` show every state the page reaches meets it.
- InlineCalendar.SelectDate: fires no callback, because the code has no `onSelect`; completing a range updates the section text and closes the overlay.
- DateRangePicker.ClearSelection: keeps the hovered day, because the code resets only the two dates (src/scripts/date-range-picker.js:233-237) and not `hoveredDate`. The highlight disappears because the grid is redrawn.
- DateRangePicker.Click: no handlers exist before the first render (by `open()`, Previous, Next or Clear), because the grid is empty until then. The model accepts cell actions in any state, on the grid of the current anchor month. It also takes "today" at the moment of the action, where the page uses the "today" of the last render to decide which cells get handlers.
- InlineCalendar.Click: judges a past day with the "today" of the click. The page attaches a cell's click handler when it draws the month, using the "today" of that drawing (public/script.js:128-158), and the handler does not check again; so with the overlay left open across midnight, the cell drawn as the old "today" still selects in the page while the model ignores it.
- DateRangePicker.SetDates: copies the dates as given and checks no order, as the code does. The ordering results (`DateRangePicker.StepKeepsOrder`, `DateRangePicker.RunKeepsOrder`) therefore cover user actions only.
- BookingForm.ScrolledFollowsLastOffset: page offsets are real numbers. The recorded `lastScroll` is kept but never read, as in the code.

## Findings

| source | as written | input that shows it | evidently intended | confidence | as-written member | corrected member |
|---|---|---|---|---|---|---|
| public/script.js:108-110 | The month after the anchor, and Previous/Next, are computed by `setMonth(getMonth() ± 1)` on a full date that keeps today's day of the month, so a day past the end of the target month overflows into the month after it (the same code is at public/script.js:46-54 and src/scripts/date-range-picker.js:64-72) | anchor date January 31, 2025: the second pane and the Next button show March 2025 and February is skipped | the calendar month after (or before) the anchor month | not executed | CivilDate.SetMonthSkipsFebruary | CivilDate.ShiftMonth |
| src/scripts/date-range-picker.js:138-151 | A cell stores its date as `toISOString().split('T')[0]`, the UTC calendar date of local midnight, and a click reads it back with `new Date(str)`, which is UTC midnight | a click on any cell in a time zone whose offset from UTC is not zero (east of UTC the stored date is already the previous day; west of it UTC midnight is the previous local evening) | the click selects the day of the clicked cell | not executed | DateRangePicker.IsoRoundTripShiftsDay | DateRangePicker.ClickSelectsClickedCell |
| src/scripts/date-range-picker.js:84-88 | The outside-click handler on the document closes the picker whenever the click target is not inside the picker. A mouse click on a date cell redraws the grid with `innerHTML` (src/scripts/date-range-picker.js:144) before it bubbles to the document, so the clicked cell is no longer inside the picker | any mouse click on an enabled cell: the picker closes and `onClose` fires, and the click that completes a range leaves no chance to press Apply, so `onSelect` never fires for mouse users | a click on a cell selects its day and the picker stays open until Apply, Escape or a click outside it, as it does for Enter and Space | not executed | DateRangePicker.MouseCompletionSkipsApply | DateRangePicker.ClickWaitsForApply |

Each finding is modelled in both forms:

- **`setMonth` overflow.** `CivilDate.SetMonthAsWritten` is `setMonth` as the page writes it, and `CivilDate.SetMonthAsWrittenOverflows` says where it lands. The pickers use `CivilDate.ShiftMonth` on (year, month) pairs instead, with `CivilDate.ShiftMonthAdds` and `CivilDate.FirstOfNextMonth` proved about it.
- **Outside click after a redraw.** `DateRangePicker.MouseClickAsWritten` is the mouse click as the page handles it after the redraw (the day it selects is the cell's own, with the ISO round trip corrected), and `DateRangePicker.MouseCompletionSkipsApply` shows that completing a range this way closes the picker with no `onSelect`. `DateRangePicker.Step` uses the intended click, and `DateRangePicker.ClickWaitsForApply` proves that the range waits for Apply and that Apply reports it.
- **ISO round trip.** `DateRangePicker.IsoRoundTripDay` is the round trip as written, in whole minutes of UTC offset. `DateRangePicker.Click` selects the cell's own day, and `DateRangePicker.ClickSelectsClickedCell` proves the clicked cell ends up selected.

=== FILE: booking_form.dfy ===
/**
 * The booking form's small controls: the bounded guest and room steppers, the popovers
 * that open one at a time, the singular/plural section texts, the language links of
 * which one is active, and the navbar's scrolled state.
 */
module BookingForm {
  import opened Text

  // ---------------------------------------------------------------------------------------
  // Steppers

  /**
   * A number input, as its handlers read it: `parseInt` of its value and of its `min` and
   * `max` attributes. A handler writes `String(n)` back, which `parseInt` reads as `n`
   * (`Text.ParseIntToString`), so the parsed numbers are the whole state.
   */
  datatype Stepper = Stepper(value: Parsed, min: Parsed, max: Parsed)

  /** The two buttons beside a number input. */
  datatype Press = Minus | Plus

  /** `a > b` on parsed numbers: any comparison with `NaN` is false. */
  predicate Above(a: Parsed, b: Parsed) {
    a.Num? && b.Num? && a.n > b.n
  }

  /** The value, `min` and `max` are all numbers, and the value lies between the two. */
  predicate InBounds(st: Stepper) {
    st.value.Num? && st.min.Num? && st.max.Num? && st.min.n <= st.value.n <= st.max.n
  }

  /** The minus button: the value goes down by one only when it is above `min`. */
  function StepDown(st: Stepper): (r: Stepper)
    ensures r.min == st.min && r.max == st.max
    ensures Above(st.value, st.min) ==> r.value == Num(st.value.n - 1)
    ensures !Above(st.value, st.min) ==> r == st
  {
    if Above(st.value, st.min) then
      var written := IntToString(st.value.n - 1);
      ParseIntToString(st.value.n - 1);
      st.(value := ParseInt(written))
    else
      st
  }

  /** The plus button: the value goes up by one only when it is below `max`. */
  function StepUp(st: Stepper): (r: Stepper)
    ensures r.min == st.min && r.max == st.max
    ensures Above(st.max, st.value) ==> r.value == Num(st.value.n + 1)
    ensures !Above(st.max, st.value) ==> r == st
  {
    if Above(st.max, st.value) then
      var written := IntToString(st.value.n + 1);
      ParseIntToString(st.value.n + 1);
      st.(value := ParseInt(written))
    else
      st
  }

  function Click(st: Stepper, b: Press): Stepper {
    match b
    case Minus => StepDown(st)
    case Plus => StepUp(st)
  }

  /** A run of button presses on one stepper. */
  function ClickAll(st: Stepper, presses: seq<Press>): Stepper
    decreases |presses|
  {
    if |presses| == 0 then st else ClickAll(Click(st, presses[0]), presses[1..])
  }

  /** One press keeps a value that lies between `min` and `max` there, and moves it by at most one. */
  lemma ClickKeepsBounds(st: Stepper, b: Press)
    requires InBounds(st)
    ensures InBounds(Click(st, b))
    ensures -1 <= Click(st, b).value.n - st.value.n <= 1
  {
  }

  /** A value that is not a number never moves, whichever button is pressed. */
  lemma NaNStaysPut(st: Stepper, b: Press)
    requires st.value.NaN?
    ensures Click(st, b) == st
  {
  }

  /** Any run of presses keeps a value that starts between `min` and `max` there. */
  lemma {:induction false} ClickAllKeepsBounds(st: Stepper, presses: seq<Press>)
    requires InBounds(st)
    ensures InBounds(ClickAll(st, presses))
    decreases |presses|
  {
    if |presses| > 0 {
      ClickKeepsBounds(st, presses[0]);
      ClickAllKeepsBounds(Click(st, presses[0]), presses[1..]);
    }
  }

  /** `k` presses of the same button. */
  function Repeat(b: Press, k: nat): (r: seq<Press>)
    ensures |r| == k && forall i :: 0 <= i < k ==> r[i] == b
    decreases k
  {
    if k == 0 then [] else [b] + Repeat(b, k - 1)
  }

  /** `k` presses of plus from an in-bounds value `v` give `min(v + k, max)`: the value saturates at `max`. */
  lemma {:induction false} PlusSaturates(st: Stepper, k: nat)
    requires InBounds(st)
    ensures var v, hi := st.value.n, st.max.n;
      ClickAll(st, Repeat(Plus, k)).value == Num(if v + k <= hi then v + k else hi)
    decreases k
  {
    if k > 0 {
      assert Repeat(Plus, k)[1..] == Repeat(Plus, k - 1);
      ClickKeepsBounds(st, Plus);
      PlusSaturates(StepUp(st), k - 1);
    }
  }

  /** `k` presses of minus from an in-bounds value `v` give `max(v - k, min)`: the value saturates at `min`. */
  lemma {:induction false} MinusSaturates(st: Stepper, k: nat)
    requires InBounds(st)
    ensures var v, lo := st.value.n, st.min.n;
      ClickAll(st, Repeat(Minus, k)).value == Num(if v - k >= lo then v - k else lo)
    decreases k
  {
    if k > 0 {
      assert Repeat(Minus, k)[1..] == Repeat(Minus, k - 1);
      ClickKeepsBounds(st, Minus);
      MinusSaturates(StepDown(st), k - 1);
    }
  }

  // ---------------------------------------------------------------------------------------
  // The guest counter of the inline page: minus and plus button `i` act on input `i`

  /** A press of the button of row `index`; a row with no input has no button. */
  function CounterClick(inputs: seq<Stepper>, index: int, b: Press): (r: seq<Stepper>)
    ensures |r| == |inputs|
    ensures forall j :: 0 <= j < |r| && j != index ==> r[j] == inputs[j]
    ensures 0 <= index < |inputs| ==> r[index] == Click(inputs[index], b)
  {
    if 0 <= index < |inputs| then inputs[index := Click(inputs[index], b)] else inputs
  }

  predicate AllInBounds(inputs: seq<Stepper>) {
    forall j :: 0 <= j < |inputs| ==> InBounds(inputs[j])
  }

  /** Presses on the counter's rows, in order. */
  function CounterRun(inputs: seq<Stepper>, presses: seq<(int, Press)>): seq<Stepper>
    decreases |presses|
  {
    if |presses| == 0 then inputs
    else CounterRun(CounterClick(inputs, presses[0].0, presses[0].1), presses[1..])
  }

  /** However the rows' buttons are pressed, every input stays between its `min` and `max`. */
  lemma {:induction false} CounterRunKeepsBounds(inputs: seq<Stepper>, presses: seq<(int, Press)>)
    requires AllInBounds(inputs)
    ensures |CounterRun(inputs, presses)| == |inputs|
    ensures AllInBounds(CounterRun(inputs, presses))
    decreases |presses|
  {
    if |presses| > 0 {
      var next := CounterClick(inputs, presses[0].0, presses[0].1);
      if 0 <= presses[0].0 < |inputs| {
        ClickKeepsBounds(inputs[presses[0].0], presses[0].1);
      }
      assert AllInBounds(next);
      CounterRunKeepsBounds(next, presses[1..]);
    }
  }

  /** The inline page's guest text: the two input values as typed, always in the plural. */
  function CounterText(adults: string, children: string): string {
    adults + " Adults, " + children + " Children"
  }

  // ---------------------------------------------------------------------------------------
  // Section texts

  /** `${n} word` followed by `suffix` unless `n` is 1; `NaN` is not 1. */
  function Counted(n: Parsed, word: string, suffix: string): string {
    ParsedToString(n) + " " + word + (if n == Num(1) then "" else suffix)
  }

  /** The guests section text, from the parsed adult and child counts. */
  function GuestsText(adults: Parsed, children: Parsed): string {
    Counted(adults, "Adult", "s") + ", " + Counted(children, "Child", "ren")
  }

  /** The rooms section text, from the parsed room count. */
  function RoomsText(rooms: Parsed): string {
    Counted(rooms, "Room", "s")
  }

  /** The rooms text starts with the count and ends in "s" exactly when the count is not one. */
  lemma RoomsTextPlural(r: int)
    ensures var t := RoomsText(Num(r));
      && ParseInt(t) == Num(r)
      && |t| > 0 && (t[|t| - 1] == 's' <==> r != 1)
  {
    var t := RoomsText(Num(r));
    assert t == IntToString(r) + (" Room" + (if r == 1 then "" else "s"));
    ParseIntOfNumeral(r, " Room" + (if r == 1 then "" else "s"));
  }

  /**
   * The guests text starts with the adult count; the letter after "Adult" is "s" exactly when
   * there is not one adult, and the text ends in "ren" exactly when there is not one child.
   */
  lemma GuestsTextPlural(a: int, c: int)
    ensures var t := GuestsText(Num(a), Num(c));
      var k := |IntToString(a)| + 6;
      && ParseInt(t) == Num(a)
      && k < |t| && (t[k] == 's' <==> a != 1)
      && |t| > 0 && (t[|t| - 1] == 'n' <==> c != 1)
  {
    var rest := AdultsTail(a, c);
    var t := GuestsText(Num(a), Num(c));
    GuestsTextSplits(a, c);
    ParseIntOfNumeral(a, rest);
    assert t[|IntToString(a)| + 6] == rest[6];
    ChildrenTail(c);
  }

  /** The guests text is the adult numeral, then the tail, which ends with the child part. */
  lemma GuestsTextSplits(a: int, c: int)
    ensures GuestsText(Num(a), Num(c)) == IntToString(a) + AdultsTail(a, c)
    ensures var t, ch := GuestsText(Num(a), Num(c)), Counted(Num(c), "Child", "ren");
      |ch| > 0 && t[|t| - 1] == ch[|ch| - 1]
  {
    var x, sfx := IntToString(a), if a == 1 then "" else "s";
    var ch := Counted(Num(c), "Child", "ren");
    Regroup(x, " ", "Adult", sfx, ", ", ch);
    assert " " + "Adult" == " Adult";
  }

  lemma Regroup(x: string, a: string, b: string, c: string, d: string, e: string)
    ensures x + a + b + c + d + e == x + (a + b + c + d + e)
    ensures a + b + c + d + e == (a + b) + c + d + e
  {
  }

  /** What follows the adult count in the guests text. */
  function AdultsTail(a: int, c: int): (rest: string)
    ensures |rest| > 6 && rest[0] == ' ' && (rest[6] == 's' <==> a != 1)
  {
    " Adult" + (if a == 1 then "" else "s") + ", " + Counted(Num(c), "Child", "ren")
  }

  /** The child part of the guests text ends in "n" exactly when the count is not one. */
  lemma ChildrenTail(c: int)
    ensures var t := Counted(Num(c), "Child", "ren");
      |t| > 0 && (t[|t| - 1] == 'n' <==> c != 1)
  {
  }

  /**
   * The inline page's guest text and the booking form's agree on the same counts exactly
   * when neither count is one: only the booking form says "Adult" and "Child".
   */
  lemma CounterTextAgrees(a: int, c: int)
    ensures CounterText(IntToString(a), IntToString(c)) == GuestsText(Num(a), Num(c)) <==> a != 1 && c != 1
  {
    if a != 1 && c != 1 {
      PluralTextsEqual(a, c);
    } else {
      TextLengths(a, c);
    }
  }

  /** With neither count one, both texts read "<a> Adults, <c> Children". */
  lemma PluralTextsEqual(a: int, c: int)
    requires a != 1 && c != 1
    ensures CounterText(IntToString(a), IntToString(c)) == GuestsText(Num(a), Num(c))
  {
    var x, y := IntToString(a), IntToString(c);
    assert Counted(Num(a), "Adult", "s") == x + " Adults";
    assert Counted(Num(c), "Child", "ren") == y + " Children";
  }

  /** The inline text is always 18 characters longer than the two numerals; the form's text
   * is 14 longer, plus one for "s" and three for "ren". */
  lemma TextLengths(a: int, c: int)
    ensures |CounterText(IntToString(a), IntToString(c))| == |IntToString(a)| + |IntToString(c)| + 18
    ensures |GuestsText(Num(a), Num(c))|
      == |IntToString(a)| + |IntToString(c)| + 14 + (if a == 1 then 0 else 1) + (if c == 1 then 0 else 3)
  {
  }

  // ---------------------------------------------------------------------------------------
  // The booking form: three steppers and the two section texts they drive

  datatype Field = Adults | Children | Rooms

  datatype Form = Form(
    adults: Stepper,
    children: Stepper,
    rooms: Stepper,
    guestsText: string,
    roomsText: string)

  function FieldOf(f: Form, x: Field): Stepper {
    match x
    case Adults => f.adults
    case Children => f.children
    case Rooms => f.rooms
  }

  /** The texts as the current values dictate. */
  predicate TextsCurrent(f: Form) {
    && f.guestsText == GuestsText(f.adults.value, f.children.value)
    && f.roomsText == RoomsText(f.rooms.value)
  }

  /** Rewrite the text of the section `x` belongs to; the other section's text stays. */
  function UpdateDisplayText(f: Form, x: Field): (r: Form)
    ensures r.adults == f.adults && r.children == f.children && r.rooms == f.rooms
    ensures x == Rooms ==> r.roomsText == RoomsText(f.rooms.value) && r.guestsText == f.guestsText
    ensures x != Rooms ==> r.guestsText == GuestsText(f.adults.value, f.children.value) && r.roomsText == f.roomsText
  {
    match x
    case Rooms => f.(roomsText := RoomsText(f.rooms.value))
    case _ => f.(guestsText := GuestsText(f.adults.value, f.children.value))
  }

  /** The form with the stepper of `x` replaced; nothing else changes. */
  function SetField(f: Form, x: Field, st: Stepper): (r: Form)
    ensures FieldOf(r, x) == st
    ensures forall y :: y != x ==> FieldOf(r, y) == FieldOf(f, y)
    ensures r.guestsText == f.guestsText && r.roomsText == f.roomsText
  {
    match x
    case Adults => f.(adults := st)
    case Children => f.(children := st)
    case Rooms => f.(rooms := st)
  }

  /** A press on the stepper of `x`: when the value moves, the section text is rewritten. */
  function PressField(f: Form, x: Field, b: Press): (r: Form)
    ensures FieldOf(r, x) == Click(FieldOf(f, x), b)
    ensures forall y :: y != x ==> FieldOf(r, y) == FieldOf(f, y)
  {
    var st := FieldOf(f, x);
    var moved := Click(st, b);
    if moved == st then f else UpdateDisplayText(SetField(f, x, moved), x)
  }

  /** Once the texts match the values, every press keeps them matching. */
  lemma PressKeepsTexts(f: Form, x: Field, b: Press)
    requires TextsCurrent(f)
    ensures TextsCurrent(PressField(f, x, b))
  {
  }

  // ---------------------------------------------------------------------------------------
  // Popovers

  /** A section's `aria-expanded` attribute: absent, "true" or "false". */
  datatype Aria = Unset | AriaTrue | AriaFalse

  /** A booking section and the popover it owns. */
  datatype Section = Section(popoverActive: bool, expanded: Aria)

  predicate NoneActive(ss: seq<Section>) {
    forall i :: 0 <= i < |ss| ==> !ss[i].popoverActive
  }

  predicate AtMostOneActive(ss: seq<Section>) {
    forall i, j :: 0 <= i < |ss| && 0 <= j < |ss| && ss[i].popoverActive && ss[j].popoverActive ==> i == j
  }

  /** Every active popover loses its active state, and every section marked expanded is marked collapsed. */
  function CloseAllPopovers(ss: seq<Section>): (r: seq<Section>)
    ensures |r| == |ss| && NoneActive(r)
    ensures forall i :: 0 <= i < |r| ==> r[i].expanded != AriaTrue
    ensures forall i :: 0 <= i < |r| && ss[i].expanded != AriaTrue ==> r[i].expanded == ss[i].expanded
  {
    seq(|ss|, i requires 0 <= i < |ss| =>
      Section(false, if ss[i].expanded == AriaTrue then AriaFalse else ss[i].expanded))
  }

  /**
   * A click on section `i`: every popover is closed first, then the section's own one is opened
   * unless it was the one already open.
   */
  function TogglePopover(ss: seq<Section>, i: int): (r: seq<Section>)
    requires 0 <= i < |ss|
    ensures |r| == |ss| && AtMostOneActive(r)
    ensures ss[i].popoverActive ==> NoneActive(r)
    ensures !ss[i].popoverActive ==> r[i] == Section(true, AriaTrue)
    ensures forall j :: 0 <= j < |r| && j != i ==> !r[j].popoverActive && r[j].expanded != AriaTrue
  {
    var wasActive := ss[i].popoverActive;
    var closed := CloseAllPopovers(ss);
    if !wasActive then closed[i := Section(true, AriaTrue)] else closed
  }

  /** Opening a section's popover and clicking the section again leaves every popover closed and no section expanded. */
  lemma ToggleTwiceClosesAll(ss: seq<Section>, i: int)
    requires 0 <= i < |ss| && !ss[i].popoverActive
    ensures var r := TogglePopover(TogglePopover(ss, i), i);
      NoneActive(r) && forall j :: 0 <= j < |r| ==> r[j].expanded != AriaTrue
  {
  }

  /** Closing everything twice is closing it once. */
  lemma CloseAllIdempotent(ss: seq<Section>)
    ensures CloseAllPopovers(CloseAllPopovers(ss)) == CloseAllPopovers(ss)
  {
  }

  /** What can happen to the popovers: a section clicked, a click elsewhere, or Escape. */
  datatype PopoverEvent = ToggleSection(index: int) | ClickOutside | EscapeKey

  function PopoverStep(ss: seq<Section>, e: PopoverEvent): (r: seq<Section>)
    ensures |r| == |ss|
  {
    match e
    case ToggleSection(i) => if 0 <= i < |ss| then TogglePopover(ss, i) else ss
    case _ => CloseAllPopovers(ss)
  }

  function PopoverRun(ss: seq<Section>, events: seq<PopoverEvent>): (r: seq<Section>)
    ensures |r| == |ss|
    decreases |events|
  {
    if |events| == 0 then ss else PopoverRun(PopoverStep(ss, events[0]), events[1..])
  }

  /** A popover is open exactly when its section is marked expanded. */
  predicate ExpandedMatchesActive(ss: seq<Section>) {
    forall i :: 0 <= i < |ss| ==> (ss[i].expanded == AriaTrue <==> ss[i].popoverActive)
  }

  /** From a form with at most one popover open, any run of events keeps at most one open, marked expanded. */
  lemma {:induction false} PopoverRunKeepsOne(ss: seq<Section>, events: seq<PopoverEvent>)
    requires AtMostOneActive(ss) && ExpandedMatchesActive(ss)
    ensures AtMostOneActive(PopoverRun(ss, events))
    ensures ExpandedMatchesActive(PopoverRun(ss, events))
    decreases |events|
  {
    if |events| > 0 {
      var next := PopoverStep(ss, events[0]);
      assert AtMostOneActive(next) && ExpandedMatchesActive(next);
      PopoverRunKeepsOne(next, events[1..]);
    }
  }

  // ---------------------------------------------------------------------------------------
  // Language links

  /** A click on link `i`: the active mark is taken off every link, then put on link `i`. */
  function ClickLanguage(links: seq<bool>, i: int): (r: seq<bool>)
    requires 0 <= i < |links|
    ensures |r| == |links| && r[i]
    ensures forall j :: 0 <= j < |r| && r[j] ==> j == i
  {
    var cleared := seq(|links|, _ => false);
    cleared[i := true]
  }

  /** The number of active links. */
  function ActiveCount(links: seq<bool>): nat
    decreases |links|
  {
    if |links| == 0 then 0 else ActiveCount(links[..|links| - 1]) + (if links[|links| - 1] then 1 else 0)
  }

  /** Exactly one link is active after a click. */
  lemma {:induction false} OneActiveAfterClick(links: seq<bool>, i: int)
    requires 0 <= i < |links|
    ensures ActiveCount(ClickLanguage(links, i)) == 1
  {
    var r := ClickLanguage(links, i);
    ActiveCountOfOne(r, i);
  }

  /** A sequence whose only true element is at `i` counts one. */
  lemma {:induction false} ActiveCountOfOne(links: seq<bool>, i: int)
    requires 0 <= i < |links| && links[i]
    requires forall j :: 0 <= j < |links| && links[j] ==> j == i
    ensures ActiveCount(links) == 1
    decreases |links|
  {
    var front := links[..|links| - 1];
    if i == |links| - 1 {
      NoneCountZero(front);
    } else {
      ActiveCountOfOne(front, i);
    }
  }

  lemma {:induction false} NoneCountZero(links: seq<bool>)
    requires forall j :: 0 <= j < |links| ==> !links[j]
    ensures ActiveCount(links) == 0
    decreases |links|
  {
    if |links| > 0 {
      NoneCountZero(links[..|links| - 1]);
    }
  }

  /** Only the last click counts: what was active before does not matter. */
  lemma LastClickWins(links: seq<bool>, i: int, j: int)
    requires 0 <= i < |links| && 0 <= j < |links|
    ensures ClickLanguage(ClickLanguage(links, i), j) == ClickLanguage(links, j)
  {
  }

  // ---------------------------------------------------------------------------------------
  // Navbar

  /** The page offset, in pixels, beyond which the navbar takes its scrolled look. */
  const ScrollThreshold: real := 50.0

  datatype Navbar = Navbar(scrolled: bool, lastScroll: real)

  /** A scroll event at page offset `offset`. */
  function OnScroll(nb: Navbar, offset: real): Navbar {
    Navbar(offset > ScrollThreshold, offset)
  }

  function ScrollRun(nb: Navbar, offsets: seq<real>): Navbar
    decreases |offsets|
  {
    if |offsets| == 0 then nb else ScrollRun(OnScroll(nb, offsets[0]), offsets[1..])
  }

  /** After any scrolling, the navbar is scrolled exactly when the last offset is past 50 pixels. */
  lemma {:induction false} ScrolledFollowsLastOffset(nb: Navbar, offsets: seq<real>)
    requires |offsets| > 0
    ensures ScrollRun(nb, offsets).scrolled <==> offsets[|offsets| - 1] > 50.0
    decreases |offsets|
  {
    if |offsets| > 1 {
      ScrolledFollowsLastOffset(OnScroll(nb, offsets[0]), offsets[1..]);
    }
  }
}

=== FILE: calendar.dfy ===
/**
 * The inline two-pane calendar of the landing page: a Monday-first grid for the anchor month
 * and one for the month after it, a flag saying whether the next click picks the check-in
 * or the check-out, and the dates section's text.
 */
module InlineCalendar {
  import opened Wrappers
  import opened CivilDate
  import opened MonthGrid

  /**
   * The calendar's state. `isOpen` is whether the overlay is shown; `selectingCheckIn` says
   * which date the next click sets.
   */
  datatype Calendar = Calendar(
    anchor: Month,
    sel: Selection,
    selectingCheckIn: bool,
    isOpen: bool)

  /** The two panes. */
  datatype Pane = Current | Following

  /** The three shapes the dates section's text takes. */
  datatype Display = BothDates(checkIn: Day, checkOut: Day) | CheckInOnly(checkIn: Day) | Placeholder

  /** A user action on the calendar. */
  datatype Action =
    | ClickDay(pane: Pane, index: int)
    | OpenSection
    | CloseButton
    | Escape
    | PrevMonth
    | NextMonth

  /** A fresh calendar: nothing selected, the next click picks the check-in, the overlay hidden. */
  function Init(today: Day): Calendar {
    Calendar(AnchorOf(today), NoSelection, true, false)
  }

  /**
   * The states the calendar can reach: the selection is ordered, and while the check-out is
   * being picked a check-in is set and no check-out is.
   */
  predicate Inv(c: Calendar) {
    && Ordered(c.sel)
    && (!c.selectingCheckIn ==> c.sel.checkIn.Some? && c.sel.checkOut.None?)
  }

  /**
   * A click on day `d`. Picking the check-in sets it, clears the check-out and moves on to the
   * check-out; picking the check-out completes the range, swapping when the click is earlier,
   * moves back to the check-in and closes the overlay.
   */
  function SelectDate(c: Calendar, d: Day): (r: Calendar)
    requires Inv(c)
    ensures Inv(r) && r.anchor == c.anchor
    ensures c.selectingCheckIn ==>
      r.sel == Selection(Some(d), None) && !r.selectingCheckIn && r.isOpen == c.isOpen
    ensures !c.selectingCheckIn ==>
      && r.sel == Selection(Some(Min(c.sel.checkIn.value, d)), Some(Max(c.sel.checkIn.value, d)))
      && r.selectingCheckIn && !r.isOpen
  {
    if c.selectingCheckIn then
      c.(sel := Selection(Some(d), None), selectingCheckIn := false)
    else
      var ci := c.sel.checkIn.value;
      var next := if d < ci then Selection(Some(d), Some(ci)) else Selection(Some(ci), Some(d));
      c.(sel := next, selectingCheckIn := true, isOpen := false)
  }

  /** The month a pane shows: the anchor month, or the month after it. */
  function PaneMonth(c: Calendar, pane: Pane): (m: Month)
    ensures MonthIndex(m) == MonthIndex(c.anchor) + (if pane == Current then 0 else 1)
  {
    match pane
    case Current => c.anchor
    case Following => ShiftMonth(c.anchor, 1)
  }

  /** The cells of a pane. */
  function RenderPane(c: Calendar, pane: Pane, today: Day): seq<Cell> {
    RenderMonth(PaneMonth(c, pane), MondayFirst, c.sel, today)
  }

  /** A click on cell `i` of a pane: past days have no click handler. */
  function Click(c: Calendar, today: Day, pane: Pane, i: int): (r: Calendar)
    requires Inv(c) && 0 <= i < GridSize
    ensures Inv(r)
    ensures GridDays(PaneMonth(c, pane), MondayFirst)[i] < today ==> r == c
    ensures GridDays(PaneMonth(c, pane), MondayFirst)[i] >= today ==>
      r == SelectDate(c, GridDays(PaneMonth(c, pane), MondayFirst)[i])
  {
    var cell := RenderPane(c, pane, today)[i];
    if cell.disabled then c else SelectDate(c, cell.date)
  }

  /** Which of the three texts the dates section shows. */
  function DisplayOf(sel: Selection): (r: Display)
    ensures r.BothDates? <==> sel.checkIn.Some? && sel.checkOut.Some?
    ensures r.CheckInOnly? <==> sel.checkIn.Some? && sel.checkOut.None?
    ensures r.Placeholder? <==> sel.checkIn.None?
    ensures !r.Placeholder? ==> r.checkIn == sel.checkIn.value
    ensures r.BothDates? ==> r.checkOut == sel.checkOut.value
  {
    if sel.checkIn.Some? && sel.checkOut.Some? then BothDates(sel.checkIn.value, sel.checkOut.value)
    else if sel.checkIn.Some? then CheckInOnly(sel.checkIn.value)
    else Placeholder
  }

  /** The dates section's text, with `format` standing for the short month-and-day formatter. */
  function DisplayText(d: Display, format: Day -> string): string {
    match d
    case BothDates(ci, co) => format(ci) + " → " + format(co)
    case CheckInOnly(ci) => format(ci) + " → Check-out"
    case Placeholder => "Check-in → Check-out"
  }

  function Step(c: Calendar, today: Day, a: Action): Calendar
    requires Inv(c)
  {
    match a
    case ClickDay(pane, i) => if 0 <= i < GridSize then Click(c, today, pane, i) else c
    case OpenSection => c.(isOpen := true)
    case CloseButton => c.(isOpen := false)
    case Escape => if c.isOpen then c.(isOpen := false) else c
    case PrevMonth => c.(anchor := ShiftMonth(c.anchor, -1))
    case NextMonth => c.(anchor := ShiftMonth(c.anchor, 1))
  }

  /** A run of actions, each with the "today" of its moment. */
  function Run(c: Calendar, events: seq<(Day, Action)>): Calendar
    requires Inv(c)
    decreases |events|
  {
    if |events| == 0 then c
    else
      StepKeepsInv(c, events[0].0, events[0].1);
      Run(Step(c, events[0].0, events[0].1), events[1..])
  }

  // ---------------------------------------------------------------------------------------

  /** A fresh calendar is in a reachable state. */
  lemma InitInv(today: Day)
    ensures Inv(Init(today)) && Init(today).selectingCheckIn
    ensures DisplayOf(Init(today).sel) == Placeholder
  {
  }

  lemma StepKeepsInv(c: Calendar, today: Day, a: Action)
    requires Inv(c)
    ensures Inv(Step(c, today, a))
  {
  }

  /** Any run of actions keeps the calendar in a reachable state, so its selection stays ordered. */
  lemma {:induction false} RunKeepsInv(c: Calendar, events: seq<(Day, Action)>)
    requires Inv(c)
    ensures Inv(Run(c, events)) && Ordered(Run(c, events).sel)
    decreases |events|
  {
    if |events| > 0 {
      StepKeepsInv(c, events[0].0, events[0].1);
      RunKeepsInv(Step(c, events[0].0, events[0].1), events[1..]);
    }
  }

  /**
   * From a fresh calendar, two clicks give the ordered range whichever is earlier, close the
   * overlay, and leave the calendar ready for a new check-in.
   */
  lemma TwoClicks(today: Day, a: Day, b: Day)
    ensures var r := SelectDate(SelectDate(Init(today), a), b);
      && r.sel == Selection(Some(Min(a, b)), Some(Max(a, b)))
      && r.selectingCheckIn && !r.isOpen
      && DisplayOf(r.sel) == BothDates(Min(a, b), Max(a, b))
  {
  }

  /** The first click shows the check-in with the check-out still to pick. */
  lemma FirstClickDisplay(c: Calendar, d: Day)
    requires Inv(c) && c.selectingCheckIn
    ensures DisplayOf(SelectDate(c, d).sel) == CheckInOnly(d)
  {
  }

  /** A third click starts over, whatever the range was. */
  lemma ThirdClickStartsOver(c: Calendar, d: Day)
    requires Inv(c) && c.sel.checkOut.Some?
    ensures SelectDate(c, d).sel == Selection(Some(d), None)
  {
  }

  /** Clicking an enabled cell marks that very cell selected in the redrawn pane. */
  lemma ClickMarksCell(c: Calendar, today: Day, pane: Pane, i: int)
    requires Inv(c) && 0 <= i < GridSize && GridDays(PaneMonth(c, pane), MondayFirst)[i] >= today
    ensures RenderPane(Click(c, today, pane, i), pane, today)[i].selected
  {
    var m := PaneMonth(c, pane);
    var d := GridDays(m, MondayFirst)[i];
    assert RenderPane(c, pane, today)[i].date == d;
    var r := SelectDate(c, d);
    assert r.sel.checkIn == Some(d) || r.sel.checkOut == Some(d);
    assert Click(c, today, pane, i) == r;
    assert PaneMonth(r, pane) == m;
    assert RenderPane(r, pane, today)[i].date == d;
  }

  /**
   * The dates section's text for a selection: the formatted check-in first, then the arrow
   * and either the formatted check-out or the "Check-out" prompt; with no check-in, the
   * placeholder.
   */
  lemma SectionText(sel: Selection, format: Day -> string)
    ensures var t := DisplayText(DisplayOf(sel), format);
      && (sel.checkIn.None? ==> t == "Check-in → Check-out")
      && (sel.checkIn.Some? ==>
            var ci := format(sel.checkIn.value);
            && t[..|ci|] == ci
            && (sel.checkOut.None? ==> t[|ci|..] == " → Check-out")
            && (sel.checkOut.Some? ==> t[|ci|..] == " → " + format(sel.checkOut.value)))
  {
    if sel.checkIn.Some? {
      var ci := format(sel.checkIn.value);
      if sel.checkOut.Some? {
        var co := format(sel.checkOut.value);
        assert ci + " → " + co == ci + (" → " + co);
      }
    }
  }

  /** The two panes show consecutive months, and the second pane's grid also begins on a Monday. */
  lemma PanesConsecutive(c: Calendar)
    ensures MonthIndex(PaneMonth(c, Following)) == MonthIndex(PaneMonth(c, Current)) + 1
    ensures Weekday(GridDays(PaneMonth(c, Following), MondayFirst)[0]) == 1
  {
  }
}

=== FILE: civil_date.dfy ===
/**
 * Calendar dates of the proleptic Gregorian calendar, as the booking widgets use them
 * through JavaScript's `Date`: a date is a day number, and year/month/day, the weekday
 * and the month arithmetic of `setMonth` are derived from it.
 *
 * Internally, years are counted from March 1 ("March years") so that the leap day is the
 * last day of its year, and 400 consecutive years (an era) always hold DaysPerEra days.
 */
module CivilDate {

  /** A calendar date, counted in days from 1970-01-01 (day 0); earlier dates are negative. */
  type Day = int

  /** A date by its calendar fields; `month` runs 1..12 (January = 1). */
  datatype Ymd = Ymd(year: int, month: int, day: int)

  /** A month of a given year; the anchor a month grid is drawn for. */
  datatype YearMonth = YearMonth(year: int, month: int)

  /** A year/month pair whose month is in 1..12. */
  type Month = ym: YearMonth | 1 <= ym.month <= 12 witness YearMonth(1970, 1)

  predicate IsLeapYear(y: int) {
    y % 4 == 0 && (y % 100 != 0 || y % 400 == 0)
  }

  function DaysInMonth(y: int, m: int): int
    requires 1 <= m <= 12
  {
    if m == 2 then (if IsLeapYear(y) then 29 else 28)
    else if m == 4 || m == 6 || m == 9 || m == 11 then 30
    else 31
  }

  predicate ValidYmd(d: Ymd) {
    1 <= d.month <= 12 && 1 <= d.day <= DaysInMonth(d.year, d.month)
  }

  /** Days in an era of 400 March years. */
  const DaysPerEra: int := 146097

  /** Days from 0000-03-01 to 1970-01-01. */
  const EpochShift: int := 719468

  /** Days from 0000-03-01 to March 1 of March year `y`. */
  function MarchYearStart(y: int): int {
    365 * y + y / 4 - y / 100 + y / 400
  }

  /** Days from March 1 to the first of the `mp`-th month after March (`mp` = 0 is March). */
  function MonthStart(mp: int): int {
    (153 * mp + 2) / 5
  }

  /** The March year a date falls in: January and February belong to the previous one. */
  function MarchYearOf(d: Ymd): int {
    if d.month <= 2 then d.year - 1 else d.year
  }

  /** Days from March 1 of its March year to date `d` (month in 1..12). */
  function DayOfMarchYear(d: Ymd): int
    requires 1 <= d.month <= 12
  {
    MonthStart((d.month + 9) % 12) + d.day - 1
  }

  /** The day number of a date given by its fields (month in 1..12). */
  function DaysFromCivil(d: Ymd): Day
    requires 1 <= d.month <= 12
  {
    MarchYearStart(MarchYearOf(d)) + DayOfMarchYear(d) - EpochShift
  }

  /** The date `doy` days after March 1 of March year `y`. */
  function FromMarchDate(y: int, doy: int): Ymd {
    var mp := (5 * doy + 2) / 153;
    var m := if mp < 10 then mp + 3 else mp - 9;
    Ymd(if m <= 2 then y + 1 else y, m, doy - MonthStart(mp) + 1)
  }

  /** The March year of its era in which day `doe` of the era falls, searched upwards from `k`. */
  function YearOfEra(doe: int, k: int): (r: int)
    requires 0 <= k <= 399 && MarchYearStart(k) <= doe < DaysPerEra
    ensures k <= r <= 399 && MarchYearStart(r) <= doe < MarchYearStart(r + 1)
    decreases 399 - k
  {
    if doe < MarchYearStart(k + 1) then k
    else
      assert k + 1 != 400 by { assert MarchYearStart(400) == DaysPerEra; }
      YearOfEra(doe, k + 1)
  }

  /** March year 0 starts on day 0 of its era. */
  lemma EraStartsAtZero()
    ensures MarchYearStart(0) == 0
  {
  }

  /** A day counted within its March year: `dayOfYear` days after March 1 of March year `year`. */
  datatype MarchDate = MarchDate(year: int, dayOfYear: int)

  /**
   * The March year and day of year of day number `n`: the era (400 years) first, by
   * division, then the year within the era by search.
   */
  function MarchDateOf(n: Day): (md: MarchDate)
    ensures 0 <= md.dayOfYear < MarchYearStart(md.year + 1) - MarchYearStart(md.year)
    ensures MarchYearStart(md.year) + md.dayOfYear == n + EpochShift
  {
    hide MarchYearStart;
    var z := n + EpochShift;
    var era, doe := z / DaysPerEra, z % DaysPerEra;
    assert z == DaysPerEra * era + doe && 0 <= doe < DaysPerEra;
    EraStartsAtZero();
    var yoe := YearOfEra(doe, 0);
    EraShift(era, yoe);
    EraShift(era, yoe + 1);
    MarchDate(400 * era + yoe, doe - MarchYearStart(yoe))
  }

  /** The calendar fields of day number `n`: a valid date whose day number is `n`. */
  function CivilFromDays(n: Day): (d: Ymd)
    ensures ValidYmd(d)
    ensures DaysFromCivil(d) == n
  {
    var md := MarchDateOf(n);
    FromMarchDateCorrect(md.year, md.dayOfYear);
    FromMarchDate(md.year, md.dayOfYear)
  }

  /** Weekday of a day number, 0 = Sunday .. 6 = Saturday (1970-01-01 was a Thursday). */
  function Weekday(n: Day): (w: int)
    ensures 0 <= w < 7
  {
    (n + 4) % 7
  }

  /** Day 0 is January 1, 1970. */
  lemma EpochDay(d: Ymd)
    requires d == Ymd(1970, 1, 1)
    ensures DaysFromCivil(d) == 0
  {
  }

  /** February 1, 2026 was a Sunday, so `Weekday` agrees with the calendar. */
  lemma KnownSunday(d: Ymd)
    requires d == Ymd(2026, 2, 1)
    ensures Weekday(DaysFromCivil(d)) == 0
  {
  }

  function MonthLength(m: Month): int {
    DaysInMonth(m.year, m.month)
  }

  /** The day number of the first of month `m`. */
  function FirstOfMonth(m: Month): Day {
    DaysFromCivil(Ymd(m.year, m.month, 1))
  }

  /** The month day `n` falls in. */
  function AnchorOf(n: Day): Month {
    var d := CivilFromDays(n);
    YearMonth(d.year, d.month)
  }

  /** Months counted from January of year 0. */
  function MonthIndex(m: YearMonth): int {
    12 * m.year + (m.month - 1)
  }

  /** The month `delta` months after `m` (before it, for negative `delta`). */
  function ShiftMonth(m: Month, delta: int): (r: Month)
    ensures MonthIndex(r) == MonthIndex(m) + delta
  {
    var i := MonthIndex(m) + delta;
    YearMonth(i / 12, i % 12 + 1)
  }

  /**
   * `date.setMonth(date.getMonth() + delta)` as JavaScript evaluates it: the year and
   * month move by `delta` months and the day of the month is kept, spilling over into the
   * following month when the target month is shorter.
   */
  function SetMonthAsWritten(n: Day, delta: int): Day {
    var d := CivilFromDays(n);
    FirstOfMonth(ShiftMonth(YearMonth(d.year, d.month), delta)) + d.day - 1
  }

  // ---------------------------------------------------------------------------------------
  // Lemmas about the March-year arithmetic

  /** Moving a March year by whole eras moves its start by whole eras of days. */
  lemma EraShift(q: int, r: int)
    ensures MarchYearStart(400 * q + r) == DaysPerEra * q + MarchYearStart(r)
  {
    assert (400 * q + r) / 4 == 100 * q + r / 4;
    assert (400 * q + r) / 100 == 4 * q + r / 100;
    assert (400 * q + r) / 400 == q + r / 400;
  }

  /** A March year has 366 days exactly when the calendar year holding its February is leap. */
  lemma MarchYearLength(y: int)
    ensures MarchYearStart(y + 1) - MarchYearStart(y) == 365 + (if IsLeapYear(y + 1) then 1 else 0)
  {
    var x := y + 1;
    DivStep(y, 4);
    DivStep(y, 100);
    DivStep(y, 400);
    DivisibilityChain(x);
    var a, b, c := x / 4 - y / 4, x / 100 - y / 100, x / 400 - y / 400;
    assert MarchYearStart(x) - MarchYearStart(y) == 365 + a - b + c;
    assert a == (if x % 4 == 0 then 1 else 0);
    assert b == (if x % 100 == 0 then 1 else 0);
    assert c == (if x % 400 == 0 then 1 else 0);
  }

  /** A multiple of 400 is a multiple of 100, and a multiple of 100 is a multiple of 4. */
  lemma DivisibilityChain(x: int)
    ensures x % 400 == 0 ==> x % 100 == 0
    ensures x % 100 == 0 ==> x % 4 == 0
  {
    if x % 400 == 0 {
      MultipleOf(x, 400, 100);
    }
    if x % 100 == 0 {
      MultipleOf(x, 100, 4);
    }
  }

  /** A multiple of `k` is a multiple of every divisor `j` of `k`. */
  lemma MultipleOf(x: int, k: int, j: int)
    requires (k == 400 && j == 100) || (k == 100 && j == 4)
    requires x % k == 0
    ensures x % j == 0
  {
    var t := (k / j) * (x / k);
    assert x == k * (x / k);
    assert x == j * t;
  }

  /** Floor division by `k` steps up by one exactly at multiples of `k`. */
  lemma DivStep(x: int, k: int)
    requires k == 4 || k == 100 || k == 400
    ensures (x + 1) / k - x / k == (if (x + 1) % k == 0 then 1 else 0)
  {
    var q, r := x / k, x % k;
    assert x == k * q + r && 0 <= r < k;
    if r == k - 1 {
      assert x + 1 == k * (q + 1);
    } else {
      assert x + 1 == k * q + (r + 1);
    }
  }

  lemma {:induction false} MarchYearStartMonotone(a: int, b: int)
    requires a <= b
    ensures MarchYearStart(a) <= MarchYearStart(b)
    decreases b - a
  {
    if a < b {
      MarchYearLength(a);
      MarchYearStartMonotone(a + 1, b);
    }
  }

  /** The length of every month but February, read off the `MonthStart` table. */
  lemma MonthStartLengths(mp: int)
    requires 0 <= mp <= 10
    ensures MonthStart(mp + 1) - MonthStart(mp) == DaysInMonth(0, if mp < 10 then mp + 3 else mp - 9)
  {
    if mp == 0 {} else if mp == 1 {} else if mp == 2 {} else if mp == 3 {} else if mp == 4 {}
    else if mp == 5 {} else if mp == 6 {} else if mp == 7 {} else if mp == 8 {} else if mp == 9 {}
  }

  /** A calendar month and its position counted from March correspond one to one. */
  lemma MarchIndexOfMonth(month: int)
    requires 1 <= month <= 12
    ensures var mp := (month + 9) % 12;
      0 <= mp <= 11 && (if mp < 10 then mp + 3 else mp - 9) == month
  {
    if month <= 2 {
      assert (month + 9) % 12 == month + 9;
    } else {
      assert (month + 9) % 12 == month - 3;
    }
  }

  lemma MonthOfMarchIndex(mp: int)
    requires 0 <= mp <= 11
    ensures var m := if mp < 10 then mp + 3 else mp - 9;
      1 <= m <= 12 && (m + 9) % 12 == mp
  {
    if mp < 10 {
      assert (mp + 12) % 12 == mp;
    }
  }

  /** Day `doy` of a March year falls in its `(5 * doy + 2) / 153`-th month. */
  lemma MarchMonthOfDay(doy: int)
    requires 0 <= doy < 366
    ensures var mp := (5 * doy + 2) / 153;
      && 0 <= mp <= 11
      && MonthStart(mp) <= doy
      && (mp <= 10 ==> doy < MonthStart(mp + 1))
      && (mp == 11 ==> MonthStart(mp) == 337)
  {
    var mp := (5 * doy + 2) / 153;
    assert 153 * mp <= 5 * doy + 2 < 153 * mp + 153;
    assert (153 * mp + 2) / 5 <= doy;
    assert (153 * (mp + 1) + 2) / 5 > doy;
  }

  /** Day `k` (from 0) of the `mp`-th month after March is read back as that month. */
  lemma MarchMonthOfDayInMonth(mp: int, k: int)
    requires 0 <= mp <= 11 && 0 <= k
    requires mp <= 10 ==> k < MonthStart(mp + 1) - MonthStart(mp)
    requires mp == 11 ==> k < 29
    ensures (5 * (MonthStart(mp) + k) + 2) / 153 == mp
  {
    var doy := MonthStart(mp) + k;
    assert 153 * mp <= 5 * doy + 2 < 153 * mp + 153 by {
      assert 153 * mp <= 5 * MonthStart(mp) + 2 <= 153 * mp + 4;
      if mp <= 10 {
        assert 5 * MonthStart(mp + 1) <= 153 * mp + 155;
      }
    }
  }

  /** The number of days in March year `y`, as 365 or 366. */
  lemma MarchYearDays(y: int)
    ensures var len := MarchYearStart(y + 1) - MarchYearStart(y);
      (len == 365 || len == 366) && (len == 366 <==> IsLeapYear(y + 1))
  {
    MarchYearLength(y);
  }

  /** Day `doy` of March year `y` is a valid date. */
  lemma FromMarchDateValid(y: int, doy: int)
    requires 0 <= doy < MarchYearStart(y + 1) - MarchYearStart(y)
    ensures ValidYmd(FromMarchDate(y, doy))
  {
    MarchYearDays(y);
    MarchMonthOfDay(doy);
    var mp := (5 * doy + 2) / 153;
    if mp <= 10 {
      MonthStartLengths(mp);
    }
  }

  /** `FromMarchDate` lands in March year `y`, on day `doy` of it. */
  lemma FromMarchDateParts(y: int, doy: int)
    requires 0 <= doy < MarchYearStart(y + 1) - MarchYearStart(y)
    ensures 1 <= FromMarchDate(y, doy).month <= 12
    ensures MarchYearOf(FromMarchDate(y, doy)) == y
    ensures DayOfMarchYear(FromMarchDate(y, doy)) == doy
  {
    MarchYearDays(y);
    MarchMonthOfDay(doy);
    var mp := (5 * doy + 2) / 153;
    MonthOfMarchIndex(mp);
  }

  lemma FromMarchDateCorrect(y: int, doy: int)
    requires 0 <= doy < MarchYearStart(y + 1) - MarchYearStart(y)
    ensures ValidYmd(FromMarchDate(y, doy))
    ensures DaysFromCivil(FromMarchDate(y, doy)) == MarchYearStart(y) + doy - EpochShift
  {
    FromMarchDateValid(y, doy);
    FromMarchDateParts(y, doy);
  }

  // ---------------------------------------------------------------------------------------
  // Round trips between day numbers and calendar fields

  /** Every valid date is recovered from its day number. */
  lemma DaysFromCivilInverse(d: Ymd)
    requires ValidYmd(d)
    ensures CivilFromDays(DaysFromCivil(d)) == d
  {
    hide MarchYearStart;
    var y, doy := MarchYearOf(d), DayOfMarchYear(d);
    var n := DaysFromCivil(d);
    assert n == MarchYearStart(y) + doy - EpochShift;
    MarchPartsOf(d);
    CivilFromMarchDate(n, y, doy);
  }

  /** The day of its March year of a valid date lies within that year. */
  lemma DayOfMarchYearBounds(d: Ymd)
    requires ValidYmd(d)
    ensures 0 <= DayOfMarchYear(d) < MarchYearStart(MarchYearOf(d) + 1) - MarchYearStart(MarchYearOf(d))
    ensures var mp := (d.month + 9) % 12;
      && 0 <= mp <= 11
      && (mp <= 10 ==> d.day - 1 < MonthStart(mp + 1) - MonthStart(mp))
      && (mp == 11 ==> d.day - 1 < 29)
  {
    hide MarchYearStart;
    var mp := (d.month + 9) % 12;
    MarchIndexOfMonth(d.month);
    MarchYearDays(MarchYearOf(d));
    if mp <= 10 {
      MonthStartLengths(mp);
    } else {
      assert MonthStart(11) == 337;
    }
  }

  /** A valid date is `FromMarchDate` of its March year and its day in that year. */
  lemma MarchPartsOf(d: Ymd)
    requires ValidYmd(d)
    ensures 0 <= DayOfMarchYear(d) < MarchYearStart(MarchYearOf(d) + 1) - MarchYearStart(MarchYearOf(d))
    ensures FromMarchDate(MarchYearOf(d), DayOfMarchYear(d)) == d
  {
    hide MarchYearStart;
    var mp := (d.month + 9) % 12;
    DayOfMarchYearBounds(d);
    MarchIndexOfMonth(d.month);
    MarchMonthOfDayInMonth(mp, d.day - 1);
    assert (5 * DayOfMarchYear(d) + 2) / 153 == mp;
  }

  /** `CivilFromDays` finds the March year and day of year a day number was built from. */
  lemma CivilFromMarchDate(n: Day, y: int, doy: int)
    requires 0 <= doy < MarchYearStart(y + 1) - MarchYearStart(y)
    requires MarchYearStart(y) + doy == n + EpochShift
    ensures CivilFromDays(n) == FromMarchDate(y, doy)
  {
    hide MarchYearStart;
    MarchDateUnique(n, y, doy);
  }

  /** Each day number has one March year and day of year: the one `MarchDateOf` finds. */
  lemma MarchDateUnique(n: Day, y: int, doy: int)
    requires 0 <= doy < MarchYearStart(y + 1) - MarchYearStart(y)
    requires MarchYearStart(y) + doy == n + EpochShift
    ensures MarchDateOf(n) == MarchDate(y, doy)
  {
    hide MarchYearStart;
    var md := MarchDateOf(n);
    if md.year < y {
      MarchYearStartMonotone(md.year + 1, y);
    } else if md.year > y {
      MarchYearStartMonotone(y + 1, md.year);
    }
  }

  // ---------------------------------------------------------------------------------------
  // Months

  /** Day `n` lies in month `m` exactly when it is one of that month's days counted from its first. */
  lemma InMonthIff(m: Month, n: Day)
    ensures AnchorOf(n) == m <==> FirstOfMonth(m) <= n < FirstOfMonth(m) + MonthLength(m)
  {
    hide MarchYearStart;
    if FirstOfMonth(m) <= n < FirstOfMonth(m) + MonthLength(m) {
      InMonthAnchor(m, n);
    }
    if AnchorOf(n) == m {
      AnchorInMonth(m, n);
    }
  }

  /** The `day`-th of a month is `day - 1` days after its first. */
  lemma DayInMonthOffset(m: Month, day: int)
    ensures DaysFromCivil(Ymd(m.year, m.month, day)) == FirstOfMonth(m) + day - 1
  {
    hide MarchYearStart;
    var d, first := Ymd(m.year, m.month, day), Ymd(m.year, m.month, 1);
    assert MarchYearOf(d) == MarchYearOf(first);
    assert DayOfMarchYear(d) == DayOfMarchYear(first) + day - 1;
  }

  lemma InMonthAnchor(m: Month, n: Day)
    requires FirstOfMonth(m) <= n < FirstOfMonth(m) + MonthLength(m)
    ensures AnchorOf(n) == m
  {
    hide MarchYearStart;
    var d := Ymd(m.year, m.month, n - FirstOfMonth(m) + 1);
    DayInMonthOffset(m, d.day);
    assert ValidYmd(d) && DaysFromCivil(d) == n;
    DaysFromCivilInverse(d);
    assert CivilFromDays(n) == d;
  }

  lemma AnchorInMonth(m: Month, n: Day)
    requires AnchorOf(n) == m
    ensures FirstOfMonth(m) <= n < FirstOfMonth(m) + MonthLength(m)
  {
    hide MarchYearStart;
    var d := CivilFromDays(n);
    assert d == Ymd(m.year, m.month, d.day);
    DayInMonthOffset(m, d.day);
  }

  /** The month after `m` starts right after the last day of `m`. */
  lemma FirstOfNextMonth(m: Month)
    ensures FirstOfMonth(ShiftMonth(m, 1)) == FirstOfMonth(m) + MonthLength(m)
  {
    hide MarchYearStart;
    NextMonthFields(m);
    if m.month == 2 {
      FebruaryEnds(m.year);
    } else if m.month == 12 {
      DecemberEnds(m.year);
    } else {
      MidYearMonthEnds(m.year, m.month);
    }
  }

  /** March 1 follows the last day of February: the March year ends with February. */
  lemma FebruaryEnds(y: int)
    ensures DaysFromCivil(Ymd(y, 3, 1)) == DaysFromCivil(Ymd(y, 2, 1)) + DaysInMonth(y, 2)
  {
    MarchYearLength(y - 1);
    hide MarchYearStart;
    assert DayOfMarchYear(Ymd(y, 2, 1)) == MonthStart(11) == 337;
    assert DayOfMarchYear(Ymd(y, 3, 1)) == 0;
  }

  /** January 1 follows December 31, both in the same March year. */
  lemma DecemberEnds(y: int)
    ensures DaysFromCivil(Ymd(y + 1, 1, 1)) == DaysFromCivil(Ymd(y, 12, 1)) + 31
  {
    hide MarchYearStart;
    assert DayOfMarchYear(Ymd(y, 12, 1)) == MonthStart(9) == 275;
    assert DayOfMarchYear(Ymd(y + 1, 1, 1)) == MonthStart(10) == 306;
  }

  /** Between March and November the next month's first is in the same year and March year. */
  lemma MidYearMonthEnds(y: int, month: int)
    requires 1 <= month <= 11 && month != 2
    ensures DaysFromCivil(Ymd(y, month + 1, 1)) == DaysFromCivil(Ymd(y, month, 1)) + DaysInMonth(y, month)
  {
    hide MarchYearStart;
    var mp := (month + 9) % 12;
    assert mp <= 10 && (month + 1 + 9) % 12 == mp + 1;
    assert MarchYearOf(Ymd(y, month, 1)) == MarchYearOf(Ymd(y, month + 1, 1));
    MonthStartLengths(mp);
  }

  /** The month after `m`, field by field. */
  lemma NextMonthFields(m: Month)
    ensures ShiftMonth(m, 1) == if m.month == 12 then YearMonth(m.year + 1, 1) else YearMonth(m.year, m.month + 1)
  {
    var i := MonthIndex(m) + 1;
    if m.month == 12 {
      assert i == 12 * (m.year + 1);
    } else {
      assert i == 12 * m.year + m.month;
    }
  }

  /** A month is determined by its index. */
  lemma MonthIndexInjective(a: Month, b: Month)
    ensures MonthIndex(a) == MonthIndex(b) <==> a == b
  {
  }

  /** Shifting by `a` then by `b` months is shifting by `a + b`. */
  lemma ShiftMonthAdds(m: Month, a: int, b: int)
    ensures ShiftMonth(ShiftMonth(m, a), b) == ShiftMonth(m, a + b)
  {
    MonthIndexInjective(ShiftMonth(ShiftMonth(m, a), b), ShiftMonth(m, a + b));
  }

  /**
   * `SetMonthAsWritten` lands in the intended month, on the same day of the month, whenever
   * that day exists there; `SetMonthAsWrittenOverflows` covers every other day.
   */
  lemma SetMonthAsWrittenShortDays(n: Day, delta: int)
    requires CivilFromDays(n).day <= MonthLength(ShiftMonth(AnchorOf(n), delta))
    ensures AnchorOf(SetMonthAsWritten(n, delta)) == ShiftMonth(AnchorOf(n), delta)
    ensures CivilFromDays(SetMonthAsWritten(n, delta)).day == CivilFromDays(n).day
  {
    hide MarchYearStart;
    var d := CivilFromDays(n);
    var target := ShiftMonth(YearMonth(d.year, d.month), delta);
    var landed := Ymd(target.year, target.month, d.day);
    DayInMonthOffset(target, d.day);
    DaysFromCivilInverse(landed);
    assert SetMonthAsWritten(n, delta) == DaysFromCivil(landed);
  }

  /** The day of the month of day `n` is its position counted from the 1st of its month. */
  lemma DayOfMonthIsOffset(n: Day)
    ensures CivilFromDays(n).day == n - FirstOfMonth(AnchorOf(n)) + 1
  {
    hide MarchYearStart;
    var d := CivilFromDays(n);
    DayInMonthOffset(AnchorOf(n), d.day);
    assert Ymd(d.year, d.month, d.day) == d;
  }

  /**
   * When the day of the month is past the end of the intended month, `SetMonthAsWritten`
   * overflows into the month after it, on the day that is left over.
   */
  lemma SetMonthAsWrittenOverflows(n: Day, delta: int)
    requires CivilFromDays(n).day > MonthLength(ShiftMonth(AnchorOf(n), delta))
    ensures AnchorOf(SetMonthAsWritten(n, delta)) == ShiftMonth(AnchorOf(n), delta + 1)
    ensures CivilFromDays(SetMonthAsWritten(n, delta)).day
      == CivilFromDays(n).day - MonthLength(ShiftMonth(AnchorOf(n), delta))
  {
    hide MarchYearStart;
    var d := CivilFromDays(n);
    var target := ShiftMonth(AnchorOf(n), delta);
    var next: Month := ShiftMonth(target, 1);
    var left := d.day - MonthLength(target);
    FirstOfNextMonth(target);
    assert SetMonthAsWritten(n, delta) == FirstOfMonth(next) + left - 1;
    assert 1 <= left <= 3 && DaysInMonth(next.year, next.month) >= 28;
    var landed := Ymd(next.year, next.month, left);
    DayInMonthOffset(next, left);
    DaysFromCivilInverse(landed);
    var s := SetMonthAsWritten(n, delta);
    assert s == DaysFromCivil(landed);
    assert CivilFromDays(s) == landed;
    assert AnchorOf(s) == next;
    ShiftMonthAdds(AnchorOf(n), delta, 1);
  }

  /**
   * From January 31, 2025, `setMonth(getMonth() + 1)` lands on March 3: the month meant is
   * February, the month reached is March.
   */
  lemma SetMonthSkipsFebruary(jan31: Ymd)
    requires jan31 == Ymd(2025, 1, 31)
    ensures ShiftMonth(AnchorOf(DaysFromCivil(jan31)), 1) == YearMonth(2025, 2)
    ensures CivilFromDays(SetMonthAsWritten(DaysFromCivil(jan31), 1)) == Ymd(2025, 3, 3)
    ensures AnchorOf(SetMonthAsWritten(DaysFromCivil(jan31), 1)) == YearMonth(2025, 3)
  {
    hide MarchYearStart;
    var n := DaysFromCivil(jan31);
    var jan: Month := YearMonth(jan31.year, 1);
    var feb: Month := YearMonth(jan31.year, 2);
    DaysFromCivilInverse(jan31);
    assert AnchorOf(n) == jan;
    NextMonthFields(jan);
    NextMonthFields(feb);
    ShiftMonthAdds(jan, 1, 1);
    assert MonthLength(feb) == 28;
    SetMonthAsWrittenOverflows(n, 1);
    var r := CivilFromDays(SetMonthAsWritten(n, 1));
    assert r.year == 2025 && r.month == 3 && r.day == 3;
  }

  /** Going back by its own weekday reaches a Sunday; one day later is a Monday. */
  lemma WeekdayBack(n: Day)
    ensures Weekday(n - Weekday(n)) == 0
    ensures Weekday(n - Weekday(n) + 1) == 1
    ensures Weekday(n - 6) == 1 <==> Weekday(n) == 0
  {
    var q := (n + 4) / 7;
    assert n + 4 == 7 * q + Weekday(n);
    assert n - Weekday(n) + 4 == 7 * q;
    assert n - 6 + 4 == 7 * (q - 1) + Weekday(n) + 1;
  }
}

=== FILE: date_range_picker.dfy ===
/**
 * The popover check-in/check-out picker: one Sunday-first month grid, a two-click
 * selection protocol, a hover preview of the range while the check-out is undecided,
 * and explicit Clear and Apply buttons.
 *
 * Every handler is a pure function from the picker's state to its next state; the
 * callbacks the picker fires are returned as a list of notices.
 */
module DateRangePicker {
  import opened Wrappers
  import opened CivilDate
  import opened MonthGrid

  /** An inclusive span of days painted as the hover preview. */
  datatype Span = Span(lo: Day, hi: Day)

  /**
   * The picker's state. `hovered` is the date under the pointer as last recorded;
   * `painted` is the hover-range highlight currently drawn on the grid, which a re-render
   * wipes and a pointer enter or leave redraws.
   */
  datatype Picker = Picker(
    isOpen: bool,
    sel: Selection,
    anchor: Month,
    hovered: Option<Day>,
    painted: Option<Span>)

  /** The callbacks the picker fires, in order. */
  datatype Notice = OnSelect(checkIn: Day, checkOut: Day) | OnClose

  /** A user action on the picker. Cells are addressed by their index in the grid. */
  datatype Action =
    | ClickCell(index: int)
    | EnterCell(index: int)
    | LeaveCell(index: int)
    | Clear
    | Apply
    | Open
    | Close
    | PrevMonth
    | NextMonth

  /** A closed picker with nothing selected, showing the month of `today`. */
  function Init(today: Day): Picker {
    Picker(false, NoSelection, AnchorOf(today), None, None)
  }

  /** Drawing the grid again wipes the hover highlight. */
  function Rendered(p: Picker): Picker {
    p.(painted := None)
  }

  /** The grid the picker shows. */
  function Render(p: Picker, today: Day): seq<Cell> {
    RenderMonth(p.anchor, SundayFirst, p.sel, today)
  }

  /**
   * Two-click selection. With no check-in, or with both dates already set, the click starts
   * over; with only a check-in it completes the range, swapping when the click is earlier.
   */
  function SelectDate(p: Picker, d: Day): (r: Picker)
    ensures Ordered(r.sel)
    ensures p.sel.checkIn.None? || p.sel.checkOut.Some? ==> r.sel == Selection(Some(d), None)
    ensures p.sel.checkIn.Some? && p.sel.checkOut.None? ==>
      r.sel == Selection(Some(Min(p.sel.checkIn.value, d)), Some(Max(p.sel.checkIn.value, d)))
    ensures r == p.(sel := r.sel, painted := None)
  {
    var next :=
      if p.sel.checkIn.None? || (p.sel.checkIn.Some? && p.sel.checkOut.Some?) then
        Selection(Some(d), None)
      else if d < p.sel.checkIn.value then
        Selection(Some(d), p.sel.checkIn)
      else
        Selection(p.sel.checkIn, Some(d));
    Rendered(p.(sel := next))
  }

  /** A click on grid cell `i`: only cells that are not disabled have a click handler. */
  function Click(p: Picker, today: Day, i: int): (r: Picker)
    requires 0 <= i < GridSize
    ensures GridDays(p.anchor, SundayFirst)[i] < today ==> r == p
    ensures GridDays(p.anchor, SundayFirst)[i] >= today ==> r == SelectDate(p, GridDays(p.anchor, SundayFirst)[i])
  {
    var cell := Render(p, today)[i];
    if cell.disabled then p else SelectDate(p, cell.date)
  }

  /** The span the hover preview covers: from the earlier to the later of check-in and hovered day. */
  function HoverSpan(sel: Selection, hovered: Option<Day>): (r: Option<Span>)
    ensures r.Some? <==> sel.checkIn.Some? && hovered.Some? && sel.checkOut.None?
    ensures r.Some? ==> r.value == Span(Min(sel.checkIn.value, hovered.value), Max(sel.checkIn.value, hovered.value))
  {
    if sel.checkIn.Some? && hovered.Some? && sel.checkOut.None? then
      var ci, h := sel.checkIn.value, hovered.value;
      var start := if ci < h then ci else h;
      var end := if ci < h then h else ci;
      Some(Span(start, end))
    else
      None
  }

  /** Redraw the hover highlight from the current state. */
  function UpdateHoverRange(p: Picker): Picker {
    p.(painted := HoverSpan(p.sel, p.hovered))
  }

  /** Whether day `d` is painted as part of the hover preview. */
  predicate Highlighted(p: Picker, d: Day) {
    p.painted.Some? && p.painted.value.lo <= d <= p.painted.value.hi
  }

  /**
   * The pointer enters grid cell `i`. Disabled cells have no handler; otherwise the hovered
   * day is recorded, and the highlight redrawn, only while a check-in waits for its check-out.
   */
  function Enter(p: Picker, today: Day, i: int): (r: Picker)
    requires 0 <= i < GridSize
    ensures r.sel == p.sel && r.anchor == p.anchor && r.isOpen == p.isOpen
    ensures r.hovered != p.hovered ==> p.sel.checkIn.Some? && p.sel.checkOut.None?
    ensures GridDays(p.anchor, SundayFirst)[i] >= today && p.sel.checkIn.Some? && p.sel.checkOut.None? ==>
      r.hovered == Some(GridDays(p.anchor, SundayFirst)[i])
  {
    var cell := Render(p, today)[i];
    if cell.disabled then p
    else if p.sel.checkIn.None? || p.sel.checkOut.Some? then p
    else UpdateHoverRange(p.(hovered := Some(cell.date)))
  }

  /** The pointer leaves grid cell `i`: the hovered day is forgotten and the highlight wiped. */
  function Leave(p: Picker, today: Day, i: int): (r: Picker)
    requires 0 <= i < GridSize
    ensures r.sel == p.sel && r.anchor == p.anchor && r.isOpen == p.isOpen
    ensures !Render(p, today)[i].disabled ==> r.hovered.None? && forall d :: !Highlighted(r, d)
  {
    var cell := Render(p, today)[i];
    if cell.disabled then p
    else UpdateHoverRange(p.(hovered := None))
  }

  /** Clear: both dates are dropped and the grid redrawn; the month shown stays. */
  function ClearSelection(p: Picker): (r: Picker)
    ensures r.sel.checkIn.None? && r.sel.checkOut.None?
    ensures r.anchor == p.anchor && r.isOpen == p.isOpen && r.hovered == p.hovered
    ensures forall d :: !Highlighted(r, d)
  {
    Rendered(p.(sel := NoSelection))
  }

  /** Close: the picker is hidden and `onClose` fires, whatever the state. */
  function ClosePicker(p: Picker): (r: (Picker, seq<Notice>))
    ensures !r.0.isOpen && r.1 == [OnClose]
    ensures r.0 == p.(isOpen := false)
  {
    (p.(isOpen := false), [OnClose])
  }

  /** Apply: with both dates set, `onSelect` fires with them and the picker closes; otherwise nothing happens. */
  function ApplySelection(p: Picker): (r: (Picker, seq<Notice>))
    ensures p.sel.checkIn.Some? && p.sel.checkOut.Some? ==>
      r.1 == [OnSelect(p.sel.checkIn.value, p.sel.checkOut.value), OnClose] && r.0 == p.(isOpen := false)
    ensures p.sel.checkIn.None? || p.sel.checkOut.None? ==> r == (p, [])
  {
    if p.sel.checkIn.Some? && p.sel.checkOut.Some? then
      var (closed, notices) := ClosePicker(p);
      (closed, [OnSelect(p.sel.checkIn.value, p.sel.checkOut.value)] + notices)
    else
      (p, [])
  }

  /** Open: the picker is shown and the grid drawn. */
  function OpenPicker(p: Picker): (r: Picker)
    ensures r.isOpen && r.sel == p.sel && r.anchor == p.anchor && r.painted.None?
  {
    Rendered(p.(isOpen := true))
  }

  /** Show the month `delta` months away and draw it. */
  function Navigate(p: Picker, delta: int): (r: Picker)
    ensures MonthIndex(r.anchor) == MonthIndex(p.anchor) + delta
    ensures r.sel == p.sel && r.isOpen == p.isOpen
  {
    Rendered(p.(anchor := ShiftMonth(p.anchor, delta)))
  }

  /** Overwrite both dates from outside; the grid is redrawn only while open. No ordering is checked. */
  function SetDates(p: Picker, checkIn: Option<Day>, checkOut: Option<Day>): (r: Picker)
    ensures GetDates(r) == (checkIn, checkOut)
    ensures r.anchor == p.anchor && r.isOpen == p.isOpen && r.hovered == p.hovered
  {
    var q := p.(sel := Selection(checkIn, checkOut));
    if p.isOpen then Rendered(q) else q
  }

  /** The two dates, as the caller sees them. */
  function GetDates(p: Picker): (Option<Day>, Option<Day>) {
    (p.sel.checkIn, p.sel.checkOut)
  }

  /**
   * One user action, with the notices it fires. A cell click is the intended one, which
   * keeps the picker open; `MouseClickAsWritten` is the mouse click as the page handles it
   * after the redraw. Both select the cell's own day, with the ISO round trip corrected.
   */
  function Step(p: Picker, today: Day, a: Action): (Picker, seq<Notice>) {
    match a
    case ClickCell(i) => if 0 <= i < GridSize then (Click(p, today, i), []) else (p, [])
    case EnterCell(i) => if 0 <= i < GridSize then (Enter(p, today, i), []) else (p, [])
    case LeaveCell(i) => if 0 <= i < GridSize then (Leave(p, today, i), []) else (p, [])
    case Clear => (ClearSelection(p), [])
    case Apply => ApplySelection(p)
    case Open => (OpenPicker(p), [])
    case Close => ClosePicker(p)
    case PrevMonth => (Navigate(p, -1), [])
    case NextMonth => (Navigate(p, 1), [])
  }

  /** A run of user actions, each with the "today" of its moment, and all notices fired. */
  function Run(p: Picker, events: seq<(Day, Action)>): (Picker, seq<Notice>)
    decreases |events|
  {
    if |events| == 0 then (p, [])
    else
      var (q, first) := Step(p, events[0].0, events[0].1);
      var (r, rest) := Run(q, events[1..]);
      (r, first + rest)
  }

  /** Every `onSelect` in `notices` reports an ordered pair. */
  predicate SelectionsOrdered(notices: seq<Notice>) {
    forall i :: 0 <= i < |notices| && notices[i].OnSelect? ==> notices[i].checkIn <= notices[i].checkOut
  }

  // ---------------------------------------------------------------------------------------

  /** Clicking an enabled cell selects that very cell: afterwards the grid marks it selected. */
  lemma ClickSelectsClickedCell(p: Picker, today: Day, i: int)
    requires 0 <= i < GridSize && GridDays(p.anchor, SundayFirst)[i] >= today
    ensures Render(Click(p, today, i), today)[i].selected
  {
    var d := GridDays(p.anchor, SundayFirst)[i];
    var r := Click(p, today, i);
    assert r == SelectDate(p, d);
    assert r.anchor == p.anchor;
    assert r.sel.checkIn == Some(d) || r.sel.checkOut == Some(d);
    assert Render(r, today)[i].date == d;
  }

  /** A new picker is closed with nothing selected, so `RunKeepsOrder` applies from it. */
  lemma InitOrdered(today: Day)
    ensures Ordered(Init(today).sel) && !Init(today).isOpen
    ensures GetDates(Init(today)) == (None, None)
    ensures Init(today).anchor == AnchorOf(today)
  {
  }

  /** Starting with no check-in, two clicks give the ordered range, in either click order. */
  lemma TwoClicksGiveOrderedRange(p: Picker, a: Day, b: Day)
    requires p.sel.checkIn.None?
    ensures SelectDate(SelectDate(p, a), b).sel == Selection(Some(Min(a, b)), Some(Max(a, b)))
  {
  }

  /** Clicking the check-in day again gives a one-night range. */
  lemma SameDayTwiceIsOneNight(p: Picker, a: Day)
    requires p.sel.checkIn.None?
    ensures SelectDate(SelectDate(p, a), a).sel == Selection(Some(a), Some(a))
  {
  }

  /**
   * With a check-in and no check-out, entering cell `i` paints exactly the days between the
   * check-in and that cell, both included.
   */
  lemma HoverPaintsSpan(p: Picker, today: Day, i: int, d: Day)
    requires 0 <= i < GridSize && GridDays(p.anchor, SundayFirst)[i] >= today
    requires p.sel.checkIn.Some? && p.sel.checkOut.None?
    ensures var h := GridDays(p.anchor, SundayFirst)[i];
      Highlighted(Enter(p, today, i), d) <==> Min(p.sel.checkIn.value, h) <= d <= Max(p.sel.checkIn.value, h)
  {
  }

  /** Once a check-out is set, entering a cell paints nothing new. */
  lemma NoHoverAfterCheckOut(p: Picker, today: Day, i: int)
    requires 0 <= i < GridSize && p.sel.checkOut.Some?
    ensures Enter(p, today, i) == p
  {
  }

  /** With no hovered day, the redrawn highlight is empty. */
  lemma NoHoveredNoHighlight(p: Picker, d: Day)
    requires p.hovered.None?
    ensures !Highlighted(UpdateHoverRange(p), d)
  {
  }

  /** Every user action keeps the selection ordered; setting dates from outside is not an action. */
  lemma StepKeepsOrder(p: Picker, today: Day, a: Action)
    requires Ordered(p.sel)
    ensures Ordered(Step(p, today, a).0.sel)
    ensures SelectionsOrdered(Step(p, today, a).1)
  {
  }

  /**
   * From an ordered selection, any run of user actions keeps it ordered, and every
   * `onSelect` fired on the way reports a check-in not after its check-out.
   */
  lemma {:induction false} RunKeepsOrder(p: Picker, events: seq<(Day, Action)>)
    requires Ordered(p.sel)
    ensures Ordered(Run(p, events).0.sel)
    ensures SelectionsOrdered(Run(p, events).1)
    decreases |events|
  {
    if |events| > 0 {
      var (q, first) := Step(p, events[0].0, events[0].1);
      StepKeepsOrder(p, events[0].0, events[0].1);
      RunKeepsOrder(q, events[1..]);
      var (r, rest) := Run(q, events[1..]);
      assert Run(p, events) == (r, first + rest);
      SelectionsOrderedConcat(first, rest);
    }
  }

  /** Joining two lists of notices whose `onSelect`s are ordered keeps them ordered. */
  lemma SelectionsOrderedConcat(a: seq<Notice>, b: seq<Notice>)
    requires SelectionsOrdered(a) && SelectionsOrdered(b)
    ensures SelectionsOrdered(a + b)
  {
    forall i | 0 <= i < |a + b| && (a + b)[i].OnSelect?
      ensures (a + b)[i].checkIn <= (a + b)[i].checkOut
    {
      if i >= |a| {
        assert (a + b)[i] == b[i - |a|];
      }
    }
  }

  // ---------------------------------------------------------------------------------------
  // The clicked day as the source computes it

  /**
   * The day a click on the cell for day `n` selects when the cell's date travels through
   * `toISOString().split('T')[0]` and back through `new Date(...)`, in a time zone
   * `offset` minutes ahead of UTC: local midnight is converted to a UTC calendar date, and
   * that date-only string is read back as UTC midnight, then seen in local time.
   */
  function IsoRoundTripDay(n: Day, offset: int): Day
    requires -1440 < offset < 1440
  {
    var instant := n * 1440 - offset;
    var isoDay := instant / 1440;
    var parsed := isoDay * 1440;
    (parsed + offset) / 1440
  }

  /** Away from UTC, the round trip lands on the day before the clicked one, east or west. */
  lemma IsoRoundTripShiftsDay(n: Day, offset: int)
    requires -1440 < offset < 1440
    ensures offset == 0 ==> IsoRoundTripDay(n, offset) == n
    ensures offset != 0 ==> IsoRoundTripDay(n, offset) == n - 1
  {
    var instant := n * 1440 - offset;
    if offset > 0 {
      assert instant / 1440 == n - 1;
      assert ((n - 1) * 1440 + offset) / 1440 == n - 1;
    } else if offset < 0 {
      assert instant / 1440 == n;
      assert (n * 1440 + offset) / 1440 == n - 1;
    }
  }

  // ---------------------------------------------------------------------------------------
  // A mouse click on a cell as the page handles it

  /**
   * A mouse click on grid cell `i` as the page handles it after the redraw. The cell's click
   * handler selects its day (the cell's own day: the ISO round trip of `IsoRoundTripDay` is
   * left corrected here) and redraws the grid, which detaches the clicked cell; the click then bubbles to
   * the document's outside-click handler, which no longer finds the cell inside the picker
   * (nor inside the dates section) and closes the picker. A disabled cell has no handler and
   * is not redrawn, so the outside-click handler sees it inside the picker and does nothing.
   */
  function MouseClickAsWritten(p: Picker, today: Day, i: int): (r: (Picker, seq<Notice>))
    requires 0 <= i < GridSize
    ensures GridDays(p.anchor, SundayFirst)[i] < today ==> r == (p, [])
    ensures GridDays(p.anchor, SundayFirst)[i] >= today ==>
      && r.1 == [OnClose] && !r.0.isOpen
      && r.0.sel == SelectDate(p, GridDays(p.anchor, SundayFirst)[i]).sel
  {
    var cell := Render(p, today)[i];
    if cell.disabled then (p, [])
    else
      ClosePicker(SelectDate(p, cell.date))
  }

  /**
   * As written, the mouse click that completes a range closes the picker at once: the range
   * is set, but `onClose` fires without any `onSelect`, and Apply is no longer on screen.
   */
  lemma MouseCompletionSkipsApply(p: Picker, today: Day, i: int)
    requires p.isOpen && p.sel.checkIn.Some? && p.sel.checkOut.None?
    requires 0 <= i < GridSize && GridDays(p.anchor, SundayFirst)[i] >= today
    ensures var (r, notices) := MouseClickAsWritten(p, today, i);
      && r.sel.checkIn.Some? && r.sel.checkOut.Some?
      && !r.isOpen
      && notices == [OnClose]
      && forall k :: 0 <= k < |notices| ==> !notices[k].OnSelect?
  {
  }

  /**
   * The intended click, which `Step` uses: completing a range keeps the picker open and fires
   * nothing, and the Apply that follows reports the range and then closes.
   */
  lemma ClickWaitsForApply(p: Picker, today: Day, i: int)
    requires p.isOpen && p.sel.checkIn.Some? && p.sel.checkOut.None?
    requires 0 <= i < GridSize && GridDays(p.anchor, SundayFirst)[i] >= today
    ensures var (r, notices) := Step(p, today, ClickCell(i));
      && r.isOpen && notices == []
      && r.sel.checkIn.Some? && r.sel.checkOut.Some?
      && ApplySelection(r).1 == [OnSelect(r.sel.checkIn.value, r.sel.checkOut.value), OnClose]
      && !ApplySelection(r).0.isOpen
  {
  }
}

=== FILE: month_grid.dfy ===
/**
 * The month grid both date pickers draw: 42 day cells (six weeks of seven days) that
 * start on the first day of the week on or before the 1st of the anchor month, with each
 * cell's flags computed from the selection and from "today".
 */
module MonthGrid {
  import opened Wrappers
  import opened CivilDate

  /** Which weekday heads the grid's columns. */
  datatype WeekStart = SundayFirst | MondayFirst

  /** Six rows of seven days. */
  const GridSize: int := 42

  /** The chosen check-in and check-out dates; either may be absent. */
  datatype Selection = Selection(checkIn: Option<Day>, checkOut: Option<Day>)

  const NoSelection: Selection := Selection(None, None)

  /** A check-out is only ever held together with a check-in that is not after it. */
  predicate Ordered(s: Selection) {
    s.checkOut.Some? ==> s.checkIn.Some? && s.checkIn.value <= s.checkOut.value
  }

  /** The earlier and the later of two days. */
  function Min(a: Day, b: Day): Day { if a <= b then a else b }
  function Max(a: Day, b: Day): Day { if a <= b then b else a }

  /** One rendered day. `dayOfMonth` is the number shown in the cell. */
  datatype Cell = Cell(
    date: Day,
    dayOfMonth: int,
    otherMonth: bool,
    isToday: bool,
    disabled: bool,
    selected: bool,
    inRange: bool)

  /** Same year, month and day of the month. */
  predicate IsSameDate(a: Day, b: Day) {
    var x, y := CivilFromDays(a), CivilFromDays(b);
    x.year == y.year && x.month == y.month && x.day == y.day
  }

  /** The cell shows the check-in or the check-out date. */
  predicate IsDateSelected(s: Selection, d: Day) {
    || (s.checkIn.Some? && IsSameDate(d, s.checkIn.value))
    || (s.checkOut.Some? && IsSameDate(d, s.checkOut.value))
  }

  /** Both dates are set and `d` lies between them, both ends included. */
  predicate IsDateInRange(s: Selection, d: Day) {
    if s.checkIn.None? || s.checkOut.None? then false
    else s.checkIn.value <= d && d <= s.checkOut.value
  }

  /**
   * The first day of the grid for anchor month `m`: the 1st minus its weekday for a
   * Sunday-first grid; for a Monday-first grid, six days back when the 1st is a Sunday and
   * `1 - weekday` days otherwise.
   */
  function GridStart(m: Month, ws: WeekStart): (start: Day)
    ensures start <= FirstOfMonth(m) < start + 7
    ensures Weekday(start) == (if ws == SundayFirst then 0 else 1)
  {
    var first := FirstOfMonth(m);
    var wd := Weekday(first);
    WeekdayBack(first);
    match ws
    case SundayFirst => first - wd
    case MondayFirst => first - wd + (if wd == 0 then -6 else 1)
  }

  /**
   * What a drawn cell says about its day: it is disabled iff the day is before today and
   * marked today iff it is today; it is selected iff it is the check-in or the check-out day,
   * and in range iff both are set and it lies between them. The number shown is the day's
   * position in its month, counted from 1.
   */
  predicate CellMeans(c: Cell, date: Day, s: Selection, today: Day) {
    && c.date == date
    && c.dayOfMonth == date - FirstOfMonth(AnchorOf(date)) + 1
    && 1 <= c.dayOfMonth <= 31
    && (c.disabled <==> date < today)
    && (c.isToday <==> date == today)
    && (c.selected <==> (s.checkIn == Some(date) || s.checkOut == Some(date)))
    && (c.inRange <==> s.checkIn.Some? && s.checkOut.Some? && s.checkIn.value <= date <= s.checkOut.value)
  }

  /** `isDateSelected` on year, month and day is membership of the day itself. */
  lemma SelectedIsSameDay(s: Selection, d: Day)
    ensures IsDateSelected(s, d) <==> (s.checkIn == Some(d) || s.checkOut == Some(d))
  {
    if s.checkIn.Some? {
      SameDateIsSameDay(d, s.checkIn.value);
    }
    if s.checkOut.Some? {
      SameDateIsSameDay(d, s.checkOut.value);
    }
  }

  /**
   * The cell for `date` in the grid of month `m`. The selection is tested on year, month and
   * day of the month, which is the same as testing the day itself.
   */
  function MakeCell(m: Month, s: Selection, today: Day, date: Day): (c: Cell)
    ensures CellMeans(c, date, s, today)
  {
    var fields := CivilFromDays(date);
    SelectedIsSameDay(s, date);
    DayOfMonthIsOffset(date);
    Cell(
      date := date,
      dayOfMonth := fields.day,
      otherMonth := fields.month != m.month,
      isToday := date == today,
      disabled := date < today,
      selected := IsDateSelected(s, date),
      inRange := IsDateInRange(s, date))
  }

  /** The 42 days the grid of month `m` shows, in order. */
  function GridDays(m: Month, ws: WeekStart): (days: seq<Day>)
    ensures |days| == GridSize
    ensures Weekday(days[0]) == (if ws == SundayFirst then 0 else 1)
    ensures days[0] <= FirstOfMonth(m) < days[0] + 7
    ensures forall i :: 0 < i < |days| ==> days[i] == days[i - 1] + 1
  {
    var start := GridStart(m, ws);
    seq(GridSize, i => start + i)
  }

  /** The 42 cells of the grid of month `m`: cell `i` is drawn for the `i`-th grid day. */
  function RenderMonth(m: Month, ws: WeekStart, s: Selection, today: Day): (cells: seq<Cell>)
    ensures |cells| == GridSize
    ensures forall i :: 0 <= i < |cells| ==> CellMeans(cells[i], GridDays(m, ws)[i], s, today)
  {
    var days := GridDays(m, ws);
    seq(GridSize, i requires 0 <= i < GridSize => MakeCell(m, s, today, days[i]))
  }

  // ---------------------------------------------------------------------------------------

  /** Comparing year, month and day is comparing days. */
  lemma SameDateIsSameDay(a: Day, b: Day)
    ensures IsSameDate(a, b) <==> a == b
  {
    if IsSameDate(a, b) {
      assert CivilFromDays(a) == CivilFromDays(b);
    }
  }

  /**
   * The cells not flagged `otherMonth` are exactly the days of the anchor month, and they
   * form one run that starts in the first row: the whole month is on the grid.
   */
  lemma GridCoversMonth(m: Month, ws: WeekStart, s: Selection, today: Day)
    ensures var cells := RenderMonth(m, ws, s, today);
      var offset := FirstOfMonth(m) - cells[0].date;
      && 0 <= offset < 7
      && offset + MonthLength(m) <= GridSize
      && forall i :: 0 <= i < GridSize ==>
           && (!cells[i].otherMonth <==> AnchorOf(cells[i].date) == m)
           && (!cells[i].otherMonth <==> offset <= i < offset + MonthLength(m))
  {
    var cells := RenderMonth(m, ws, s, today);
    var days := GridDays(m, ws);
    MonthLengthBounds(m);
    forall i | 0 <= i < GridSize
      ensures !cells[i].otherMonth <==> AnchorOf(cells[i].date) == m
      ensures !cells[i].otherMonth <==> FirstOfMonth(m) - days[0] <= i < FirstOfMonth(m) - days[0] + MonthLength(m)
    {
      GridDates(days, i);
      assert cells[i] == MakeCell(m, s, today, days[i]);
      CellMonth(m, s, today, days[i]);
    }
  }

  /** The `otherMonth` flag of a day near month `m` says whether the day lies outside `m`. */
  lemma CellMonth(m: Month, s: Selection, today: Day, d: Day)
    requires FirstOfMonth(m) - 7 < d < FirstOfMonth(m) + GridSize
    ensures !MakeCell(m, s, today, d).otherMonth <==> AnchorOf(d) == m
    ensures !MakeCell(m, s, today, d).otherMonth <==> FirstOfMonth(m) <= d < FirstOfMonth(m) + MonthLength(m)
  {
    DayNearMonth(m, d);
  }

  /**
   * Within six days before and 41 days after the 1st of `m`, the month number alone tells
   * whether a day belongs to `m`: the days there lie in the month before, `m`, or the month after.
   */
  lemma DayNearMonth(m: Month, d: Day)
    requires FirstOfMonth(m) - 7 < d < FirstOfMonth(m) + GridSize
    ensures CivilFromDays(d).month == m.month <==> AnchorOf(d) == m
    ensures AnchorOf(d) == m <==> FirstOfMonth(m) <= d < FirstOfMonth(m) + MonthLength(m)
  {
    hide MarchYearStart, DaysFromCivil;
    InMonthIff(m, d);
    if d < FirstOfMonth(m) {
      DayBeforeMonth(m, d);
    } else if d >= FirstOfMonth(m) + MonthLength(m) {
      DayAfterMonth(m, d);
    }
  }

  /** A day in the week before month `m` lies in the month before it. */
  lemma DayBeforeMonth(m: Month, d: Day)
    requires FirstOfMonth(m) - 7 < d < FirstOfMonth(m)
    ensures AnchorOf(d) == ShiftMonth(m, -1) && CivilFromDays(d).month != m.month
  {
    hide MarchYearStart, DaysFromCivil;
    var prev := ShiftMonth(m, -1);
    ShiftMonthAdds(m, -1, 1);
    FirstOfNextMonth(prev);
    MonthLengthBounds(prev);
    InMonthIff(prev, d);
    NeighbourMonths(m);
  }

  /** A day within six weeks of the 1st of `m` but past its end lies in the month after it. */
  lemma DayAfterMonth(m: Month, d: Day)
    requires FirstOfMonth(m) + MonthLength(m) <= d < FirstOfMonth(m) + GridSize
    ensures AnchorOf(d) == ShiftMonth(m, 1) && CivilFromDays(d).month != m.month
  {
    hide MarchYearStart, DaysFromCivil;
    var next := ShiftMonth(m, 1);
    FirstOfNextMonth(m);
    MonthLengthBounds(m);
    MonthLengthBounds(next);
    FirstOfNextMonth(next);
    InMonthIff(next, d);
    NeighbourMonths(m);
  }

  lemma MonthLengthBounds(m: Month)
    ensures 28 <= MonthLength(m) <= 31
  {
  }

  /** The grid's days run on from the first one. */
  lemma {:induction false} GridDates(days: seq<Day>, i: int)
    requires 0 <= i < |days|
    requires forall j :: 0 < j < |days| ==> days[j] == days[j - 1] + 1
    ensures days[i] == days[0] + i
  {
    if i > 0 {
      GridDates(days, i - 1);
    }
  }

  /** The months before and after `m` have other month numbers than `m`. */
  lemma NeighbourMonths(m: Month)
    ensures ShiftMonth(m, -1).month != m.month
    ensures ShiftMonth(m, 1).month != m.month
  {
  }
}

=== FILE: text.dfy ===
/**
 * Decimal numerals: how a number is written into an input's value or a template string,
 * and how `parseInt(s)` reads it back.
 */
module Text {

  /** What `parseInt` returns: a number, or `NaN` when the text starts with no digit. */
  datatype Parsed = Num(n: int) | NaN

  predicate IsDigit(c: char) {
    '0' <= c <= '9'
  }

  predicate AllDigits(s: string) {
    forall i :: 0 <= i < |s| ==> IsDigit(s[i])
  }

  function DigitChar(d: int): (c: char)
    requires 0 <= d < 10
    ensures IsDigit(c) && c as int - '0' as int == d
  {
    (d + '0' as int) as char
  }

  /** The decimal numeral of `n`, without leading zeros. */
  function NatToString(n: nat): (s: string)
    ensures 1 <= |s| && AllDigits(s)
    ensures |s| > 1 ==> s[0] != '0'
    decreases n
  {
    if n < 10 then [DigitChar(n)] else NatToString(n / 10) + [DigitChar(n % 10)]
  }

  /** The numeral of `n` as `String(n)` writes it: a minus sign for negatives. */
  function IntToString(n: int): string {
    if n < 0 then "-" + NatToString(-n) else NatToString(n)
  }

  /** The number a run of digits denotes. */
  function DigitsValue(s: string): nat
    requires AllDigits(s)
    decreases |s|
  {
    if |s| == 0 then 0 else DigitsValue(s[..|s| - 1]) * 10 + (s[|s| - 1] as int - '0' as int)
  }

  /** The length of the run of digits at the start of `s`. */
  function DigitPrefix(s: string): (k: nat)
    ensures k <= |s| && AllDigits(s[..k])
    ensures k < |s| ==> !IsDigit(s[k])
    decreases |s|
  {
    if |s| == 0 || !IsDigit(s[0]) then 0
    else
      var k := DigitPrefix(s[1..]);
      assert s[..k + 1] == [s[0]] + s[1..][..k];
      k + 1
  }

  predicate IsSpace(c: char) {
    c == ' ' || c == '\t' || c == '\n' || c == '\r'
  }

  /** `s` without its leading white space. */
  function TrimStart(s: string): (t: string)
    ensures |t| > 0 ==> !IsSpace(t[0])
    decreases |s|
  {
    if |s| > 0 && IsSpace(s[0]) then TrimStart(s[1..]) else s
  }

  /** The value of the run of digits at the start of `body`, or `NaN` when it starts with no digit. */
  function ParseDigits(body: string): (r: Parsed)
    ensures r.NaN? <==> |body| == 0 || !IsDigit(body[0])
    ensures r.Num? ==> r.n >= 0
  {
    var k := DigitPrefix(body);
    if k == 0 then NaN else Num(DigitsValue(body[..k]))
  }

  /** An optional sign, then digits. */
  function ParseSigned(t: string): Parsed {
    if |t| > 0 && t[0] == '-' then
      match ParseDigits(t[1..])
      case Num(v) => Num(-v)
      case NaN => NaN
    else if |t| > 0 && t[0] == '+' then ParseDigits(t[1..])
    else ParseDigits(t)
  }

  /**
   * Base-ten `parseInt`: leading white space is skipped, one optional sign is read, then the
   * longest run of digits; anything after it is ignored, and no digit at all gives `NaN`.
   */
  function ParseInt(s: string): Parsed {
    ParseSigned(TrimStart(s))
  }

  /** How a parsed number prints in a template string. */
  function ParsedToString(p: Parsed): string {
    match p
    case Num(n) => IntToString(n)
    case NaN => "NaN"
  }

  // ---------------------------------------------------------------------------------------

  /** Reading the digits `NatToString` writes gives back the number. */
  lemma {:induction false} NatToStringValue(n: nat)
    ensures DigitsValue(NatToString(n)) == n
    decreases n
  {
    if n >= 10 {
      var s := NatToString(n);
      NatToStringValue(n / 10);
      assert s[..|s| - 1] == NatToString(n / 10);
    }
  }

  /**
   * The digit run of a numeral followed by text that does not start with a digit ends
   * with the numeral: what follows it is ignored.
   */
  lemma {:induction false} DigitPrefixStops(s: string, rest: string)
    requires AllDigits(s)
    requires |rest| == 0 || !IsDigit(rest[0])
    ensures DigitPrefix(s + rest) == |s|
    decreases |s|
  {
    if |s| == 0 {
      assert s + rest == rest;
    } else {
      assert (s + rest)[1..] == s[1..] + rest;
      DigitPrefixStops(s[1..], rest);
    }
  }

  /** The digits at the start of a numeral followed by other text read as the numeral's number. */
  lemma NumeralBody(m: nat, rest: string)
    requires |rest| == 0 || !IsDigit(rest[0])
    ensures ParseDigits(NatToString(m) + rest) == Num(m)
  {
    var digits := NatToString(m);
    DigitPrefixStops(digits, rest);
    NatToStringValue(m);
    assert (digits + rest)[..|digits|] == digits;
  }

  /** `parseInt` reads back what `String(n)` wrote, followed by anything that is not a digit. */
  lemma ParseIntOfNumeral(n: int, rest: string)
    requires |rest| == 0 || !IsDigit(rest[0])
    ensures ParseInt(IntToString(n) + rest) == Num(n)
  {
    var m: nat := if n < 0 then -n else n;
    var body := NatToString(m) + rest;
    NumeralBody(m, rest);
    if n < 0 {
      NegativeNumeral(m, body);
      assert IntToString(n) + rest == "-" + body;
    } else {
      assert IntToString(n) + rest == body;
      NoLeadingSpace(body);
    }
  }

  /** Text that starts with a digit is read as digits alone. */
  lemma NoLeadingSpace(s: string)
    requires |s| > 0 && IsDigit(s[0])
    ensures ParseInt(s) == ParseDigits(s)
  {
  }

  /** A minus sign before digits negates their value. */
  lemma NegativeNumeral(m: nat, body: string)
    requires ParseDigits(body) == Num(m)
    ensures ParseInt("-" + body) == Num(-(m as int))
  {
    var s := "-" + body;
    assert TrimStart(s) == s;
    assert s[1..] == body;
  }

  /** `parseInt(String(n))` is `n`. */
  lemma ParseIntToString(n: int)
    ensures ParseInt(IntToString(n)) == Num(n)
  {
    ParseIntOfNumeral(n, "");
    assert IntToString(n) + "" == IntToString(n);
  }
}

=== FILE: wrappers.dfy ===
/** Optional values: the model's stand-in for a JavaScript `null`-able field. */
module Wrappers {

  datatype Option<+T> = None | Some(value: T)
}
